=== FILE: README.md ===
# locohost journal and snapshot engine in Dafny

This project models the core of locohost's chain-of-thought journal:

- **Create.** `_create_cot` writes numbered entry files `cot_NNNN.md` or `cot_NNNN.json` into a context directory.
- **Update.** `_update_cot` appends to the newest entry.
- **Compress.** `_compress_cot` does four things in order:
  1. sends the previous snapshot and all Markdown entries to a summariser;
  2. extracts the compressed content and a commit message from the reply;
  3. overwrites `snapshot.md`;
  4. stages and commits it with git.
- **Extraction.** Both `_compress_cot` and `get_snapshot_data` use the same split-based marker extraction.
- **Context directory.** `_get_context_dir` resolves the directory.
- **Session.** The process-wide `Session` singleton holds the current project, its directories and its cached file list.

Everything is functional. The file system is a map from directory path to the files in it. Each operation is a pure function whose inputs include these:

- the timestamp;
- the summariser's reply, where `None` means the call raised;
- the success of `git add` and `git commit`;
- the order `os.listdir` returns;
- the project tree walk.

Modules:

- `Wrappers`: `Option` and `Result`.
- `Strings`: Python's `startswith`, `endswith`, `split`, `strip`, string `<` and the universal-newline translation of a text-mode read, plus `max` over a set of strings.
- `Decimal`: `str(n)` and `{n:04d}`, and the fact that four-digit padded numbers sort as strings in numeric order.
- `Paths`: `os.path.join`, `os.path.basename` and `_get_context_dir`.
- `Json`: the JSON documents of `.json` entries, with `d.get`, `d[k] = v` and the `indent=2` text.
- `Markers`: section extraction, the compaction reply and `get_snapshot_data`.
- `Journal`: entry naming, create and update.
- `Compaction`: compression.
- `ProjectSession`: the `Session` class.

Behaviour of the code worth knowing:

- **Closing marker.** A section is the text after the first opening marker, cut at the earlier of the next opening marker and the first closing marker, then stripped. Only a missing *opening* marker raises (an IndexError). A missing closing marker is not an error.
- **Journal layout.** Entries are numbered by counting the existing `cot_*.<fmt>` names. Nothing retries, locks or renames atomically.
- **Failures.** A failed summariser call or a failed git step makes `_compress_cot` return `None` rather than surface an error. A failed git step leaves `snapshot.md` already overwritten.
- **Count-based numbering.** The next entry is numbered one past the count of existing entries. When that number already names an entry, for example after removing an entry below the highest, the number is reused and that file is replaced (`Journal.CreateOverwritesAfterGap`).
- **Choice of update target.** `_update_cot` picks the greatest name as a string. This is the newest entry up to 9999 entries but not beyond (`Journal.LatestIsHighest`, `Journal.LatestPastTenThousand`).
- **`get_project_dir` shadowing.** The second `get_project_dir` definition replaces the first, so it answers `_project_dir`.
- **What `set_project_dir` rescans.** It walks `project_dir`, not the value just set.
- **Newlines on reading.** Writes store the text as given, but `_compress_cot` reads `snapshot.md` and the entries in text mode, which turns each "\r\n" and each lone "\r" into "\n". So the next request carries a compressed snapshot or an entry without its carriage returns (`Compaction.CompressedBecomesPrevious`).

## Model

| member | source | states |
|---|---|---|
| Strings.FindFirst | locohost_cli/locohost.py:187-188 | the search `split` performs: `None` exactly when the pattern does not occur, otherwise the first index where it does |
| Strings.Split | locohost_cli/locohost.py:187-188 | Python's `s.split(sep)` always yields at least one piece |
| Strings.SplitShape | locohost_cli/locohost.py:187-188 | `split` yields a second piece exactly when the separator occurs; the first piece is the text before its first occurrence and the second starts right after it |
| Strings.SplitJoin | locohost_cli/locohost.py:187-188 | joining the pieces of `s.split(sep)` with `sep` gives `s` back |
| Strings.SplitPiecesAvoidSeparator | locohost_cli/locohost.py:187-188 | no piece of `s.split(sep)` contains `sep` |
| Strings.Strip | locohost_cli/locohost.py:187-188 | `strip()` leaves no whitespace at either end and returns a window of the input with only whitespace around it |
| Strings.StripFramed | locohost_cli/locohost.py:187-188 | stripping whitespace added around an already stripped text gives that text back |
| Strings.ReadText | locohost_cli/locohost.py:128-129 | a text-mode read leaves no carriage return and never lengthens the text |
| Strings.ReadTextPlain | locohost_cli/locohost.py:128-129 | a stored text without carriage returns reads back exactly as written |
| Strings.ReadTextIdempotent | locohost_cli/locohost.py:138-139 | reading a text that was already read changes nothing |
| Strings.ReadTextCrlf | locohost_cli/locohost.py:138-139 | a text stored with "\r\n" line endings reads back as the same text with "\n" endings |
| Strings.LexLessTotal | locohost_cli/locohost.py:79 | Python's string `<` orders any two distinct strings one way or the other |
| Strings.LexLessTransitive | locohost_cli/locohost.py:79 | Python's string `<` is transitive |
| Strings.LexMax | locohost_cli/locohost.py:79 | `max` of a non-empty set of names is one of them and no name is greater |
| Strings.LexMaxUnique | locohost_cli/locohost.py:79 | that maximum is unique, so the listing order does not matter |
| Decimal.NatToString | locohost_cli/locohost.py:39 | `str(n)` is a non-empty digit string with no leading zero |
| Decimal.ValueOfNatToString | locohost_cli/locohost.py:39 | reading `str(n)` back gives `n` |
| Decimal.Pad4 | locohost_cli/locohost.py:33 | `{n:04d}` is all digits: exactly four below 10000, otherwise `str(n)` |
| Decimal.Pad4RoundTrip | locohost_cli/locohost.py:33 | reading `{n:04d}` back gives `n` |
| Decimal.Pad4Injective | locohost_cli/locohost.py:33 | different numbers get different padded strings |
| Decimal.Pad4Order | locohost_cli/locohost.py:33 | up to 9999, padded strings compare as strings exactly as the numbers compare |
| Paths.BasenameOfJoin | locohost_cli/locohost.py:205 | the basename of `join(dir, name)` is `name` for a plain file name |
| Paths.ContextDir | locohost_cli/locohost.py:444-448 | a given context directory is used as is; otherwise the result starts with the working directory, has basename `.context`, and is exactly `.context` longer, plus one for the separator unless the working directory is empty or ends in `/`; together these fix `join(cwd, '.context')` |
| Json.Lookup | locohost_cli/locohost.py:97 | `d.get(key)` is `None` exactly when the key is absent, else a value stored under it |
| Json.Store | locohost_cli/locohost.py:97 | after `d[key] = v` the key maps to `v`, every other key keeps its value, a new key is appended, and the existing key order is kept |
| Markers.SectionAgreesWithCut | locohost_cli/locohost.py:187-188 | the split-based extraction equals the index-based reference: after the first opening marker, up to the earlier of the next opening and the first closing marker, stripped |
| Markers.Section | locohost_cli/locohost.py:187-188 | extraction raises, naming the opening marker, exactly when that marker is absent; a missing closing marker is no failure |
| Markers.SectionAvoidsMarkers | locohost_cli/locohost.py:187-188 | an extracted section is stripped and contains neither of its markers |
| Markers.ParseCompression | locohost_cli/locohost.py:187-188 | parsing a compaction reply fails exactly when an opening marker is missing, and reports the first missing one |
| Markers.ParseCompressionRoundTrip | locohost_cli/locohost.py:157-188 | content and message free of markers and outer whitespace come back unchanged from a reply in the requested layout |
| Markers.ParseSnapshotData | locohost_cli/locohost.py:434-442 | `get_snapshot_data` succeeds exactly when all three opening markers occur; without the file-text marker it reports that one |
| Markers.SnapshotDataClean | locohost_cli/locohost.py:434-442 | every field `get_snapshot_data` returns is stripped and contains neither of its markers |
| Journal.EntryName | locohost_cli/locohost.py:33 | the new file's name passes the `cot_*.<fmt>` filter of line 28 |
| Journal.EntryNameInjective | locohost_cli/locohost.py:33 | different entry numbers give different file names |
| Journal.EntryOrder | locohost_cli/locohost.py:79 | up to 9999, entry names compare as strings exactly as their numbers compare |
| Journal.NumberedFresh | locohost_cli/locohost.py:28-33 | in a journal numbered 1..k, the name for k+1 is not yet taken |
| Journal.NextNumber | locohost_cli/locohost.py:28-29 | the next number is at least 1, and in a journal numbered 1..k it is k+1, a name no file has yet |
| Journal.GaplessNext | locohost_cli/locohost.py:28-33 | a directory whose entries are numbered 1..k holds k entries and no file named for k+1 |
| Journal.NumberedSize | locohost_cli/locohost.py:28-29 | a journal numbered 1..k has k entries, so the count-based next number is k+1 |
| Journal.MdEntry | locohost_cli/locohost.py:39-43 | a Markdown entry starts with its numbered title and ends with the context text verbatim |
| Journal.MdEntryMentions | locohost_cli/test_cot_operations.py:26-30 | a Markdown entry contains the title with its number, `Project: <name>` and the context |
| Journal.JsonEntry | locohost_cli/locohost.py:45-50 | a JSON entry is an object holding `entry_number`, `created`, `project` and `content` as written, and no `updates` |
| Journal.WriteFile | locohost_cli/locohost.py:55-56 | writing one file changes that file only |
| Journal.WriteFileTwice | locohost_cli/locohost.py:194-196 | opening a file for writing truncates it, so writing the same body twice leaves what writing it once leaves |
| Journal.MakeDir | locohost_cli/locohost.py:24 | `makedirs(exist_ok=True)` adds the directory if missing and keeps everything else |
| Journal.Create | locohost_cli/locohost.py:19-61 | create adds the next entry name to the set for `md` or `json` (the name is already there after a gap), and for other formats only creates the directory; every other directory and every other file is unchanged |
| Journal.CreateWritesEntry | locohost_cli/locohost.py:38-56 | the entry written under the next number has the Markdown text or JSON document of that number |
| Journal.CreateKeepsNumbering | locohost_cli/locohost.py:28-33 | in a gapless journal the new name is fresh and the journal stays gapless |
| Journal.CreateOverwritesAfterGap | locohost_cli/locohost.py:28-33 | with only entry 2 present, the new entry is numbered 2 again and replaces the existing file |
| Journal.MdUpdate | locohost_cli/locohost.py:87 | the appended text opens with a blank line and the `## Update:` heading carrying the timestamp, and ends with the context verbatim |
| Journal.UpdateRecord | locohost_cli/locohost.py:93-96 | an update record is an object of two fields, `timestamp` and `content`, holding the values given |
| Journal.AppendMd | locohost_cli/locohost.py:85-88 | a Markdown update keeps the old text as a prefix and ends with the new context |
| Journal.AppendJson | locohost_cli/locohost.py:90-100 | a JSON update fails exactly when the file is not a JSON object or its `updates` is not a list; otherwise `updates` gains exactly one record, and all other keys and the key order are kept |
| Journal.Update | locohost_cli/locohost.py:63-109 | with the directory present, update keeps the set of directories and file names and changes at most the file with the greatest entry name; only the `json` format with an entry present can fail |
| Journal.Extend | locohost_cli/locohost.py:73-100 | in an existing directory, the file names and entry names stay the same, only the entry with the greatest name can change, and only the `json` format with an entry present can fail |
| Journal.UpdateAppendsMd | locohost_cli/locohost.py:79-88 | with Markdown entries present, the update succeeds and the result is the old files with the greatest-named entry's text followed by the update text |
| Journal.UpdateAppendsJson | locohost_cli/locohost.py:79-100 | with JSON entries present, the update fails, with the same error, exactly when the greatest-named entry cannot be extended, and otherwise replaces that entry alone with the extended document |
| Journal.UpdateWithoutDirCreates | locohost_cli/locohost.py:68-71 | without the context directory, updating is creating |
| Journal.UpdateWithoutEntries | locohost_cli/locohost.py:73-77 | with no entry of the format, updating changes nothing |
| Journal.LatestIsHighest | locohost_cli/locohost.py:79 | in a gapless journal of 1..9999 entries, `max` picks the highest-numbered entry |
| Journal.LatestPastTenThousand | locohost_cli/locohost.py:79 | with 10000 entries, `max` does not pick entry 10000 |
| Journal.UpdateAppendsToNewest | locohost_cli/locohost.py:79-88 | a Markdown update of a gapless journal appends the update text to the newest entry and leaves all other files alone |
| Journal.JsonUpdateAppendsRecord | locohost_cli/locohost.py:90-100 | a first JSON update gives the newest entry `updates` = [one record] and keeps its other fields |
| Journal.CreateThenUpdate | locohost_cli/test_cot_operations.py:32-43 | create then update in an empty directory leaves one entry, holding the created text followed by the update |
| Compaction.Extract | locohost_cli/locohost.py:184-188 | the extraction fails exactly when an opening marker is missing from the reply |
| Compaction.Compress | locohost_cli/locohost.py:114-227 | a missing directory or failed call returns `None` with no write and no git call; a missing marker raises with no write and no git call |
| Compaction.Run | locohost_cli/locohost.py:121-227 | nothing is written unless the extraction succeeded; the snapshot path is returned exactly when the directory exists, the extraction succeeded and both git steps succeeded |
| Compaction.Publish | locohost_cli/locohost.py:193-227 | after extraction nothing raises: the request is the one built before the call, git runs once when the add fails and twice otherwise, and the snapshot path is returned exactly when both git commands succeed |
| Compaction.PublishWrites | locohost_cli/locohost.py:193-217 | the files afterwards are the old ones with `snapshot.md` overwritten by the compressed content; `git add` stages `snapshot.md` and the commit carries the extracted message |
| Compaction.SnapshotBasename | locohost_cli/locohost.py:205 | the file staged by `git add` is `snapshot.md` |
| Compaction.RunWrites | locohost_cli/locohost.py:193-222 | after a successful extraction, `snapshot.md` holds the compressed content and every other file is untouched; the git calls are add, then commit with the message only if add succeeded |
| Compaction.PreviousSnapshot | locohost_cli/locohost.py:125-132 | the previous snapshot is empty when `snapshot.md` is absent; when present it is the file's text with "\r\n" and "\r" turned into "\n", so it never holds a carriage return |
| Compaction.EntriesText | locohost_cli/locohost.py:134-139 | the entries text is empty exactly when the listing has no `cot_*.md` file |
| Compaction.EntriesTextAppend | locohost_cli/locohost.py:136-139 | the entries text of two listings one after the other is the first's text followed by the second's |
| Compaction.EntriesTextSingle | locohost_cli/locohost.py:135-139 | a single listed file contributes its text as a text-mode read returns it, and a blank line, if it is a `cot_*.md` file, and nothing otherwise |
| Compaction.EntriesTextAt | locohost_cli/locohost.py:135-139 | each listed file's contribution sits exactly between the texts of the files listed before it and after it, so the entries text is the Markdown chunks in listing order and nothing else |
| Compaction.RunRequest | locohost_cli/locohost.py:125-139 | with the directory present a request is sent; its snapshot is empty when `snapshot.md` is absent and that file's text as read (universal newlines) otherwise; every listed Markdown entry's text as read, followed by a blank line, is part of its entries; and the entries are, at every listing position, the text of the earlier files, that file's chunk, then the text of the later files |
| Compaction.RunRequestIgnoresOthers | locohost_cli/locohost.py:134-139 | replacing the directory by one that agrees on every Markdown entry leaves the request's entries text unchanged |
| Compaction.EntriesTextIgnoresOthers | locohost_cli/locohost.py:135-139 | files that are not `cot_*.md`, JSON entries included, do not affect the request |
| Compaction.EntriesTextHasEntry | locohost_cli/locohost.py:135-139 | every Markdown entry's text as a text-mode read returns it, followed by a blank line, is part of the request |
| Compaction.CompressedBecomesPrevious | locohost_cli/locohost.py:126-129 | the next compression sends what one compression wrote after the read's newline translation, which is exactly the written content when it holds no carriage return |
| Compaction.RunTwice | locohost_cli/locohost.py:193-196 | compressing again with the same answer leaves the files as they were after the first call |
| Compaction.RunKeepsJournal | locohost_cli/locohost.py:193-196 | compression never changes the journal: same entry names, same entry contents |
| Compaction.ExtractWellFormedReply | locohost_cli/locohost.py:157-188 | a reply in the requested layout with clean texts yields exactly that content and message |
| Compaction.CompressWellFormedReply | locohost_cli/locohost.py:193-227 | with such a reply, the snapshot becomes the content, the commit carries the message, and the path is returned exactly when both git steps succeed |
| ProjectSession.Construct | locohost_cli/session.py:7-15 | `Session()` leaves the single instance registered and returns an existing instance unchanged |
| ProjectSession.ConstructSingleton | locohost_cli/session.py:7-15 | constructing again returns the same session and registry |
| ProjectSession.ConstructFirst | locohost_cli/session.py:10-14 | the first instance has no project, an empty cache and no files |
| ProjectSession.Scan | locohost_cli/session.py:41-45 | a scan replaces only the file list: with the walk of `project_dir`, or with `[]` plus a TypeError when none is set |
| ProjectSession.SetProject | locohost_cli/session.py:17-22 | `set_project` never fails, sets name and `project_dir = join(dir, name)`, and leaves the cache and `_project_dir` alone |
| ProjectSession.SetProjectFields | locohost_cli/session.py:19-22 | after a change, `context_dir` is the `.context` directory `_get_context_dir` would resolve in the project directory, and the files are its walk |
| ProjectSession.SetProjectUnchanged | locohost_cli/session.py:18 | setting the project the session already has changes nothing |
| ProjectSession.SetProjectIdempotent | locohost_cli/session.py:17-22 | setting the same project twice equals setting it once |
| ProjectSession.SetProjectDir | locohost_cli/session.py:33-36 | `set_project_dir(d)` sets `_project_dir` to `d`, keeps the project fields, and is a no-op when the value is unchanged |
| ProjectSession.SetProjectDirRescansProjectDir | locohost_cli/session.py:33-45 | a new value rescans `project_dir`, not the value just set, and raises when no project was set |
| ProjectSession.ProjectDirShadowed | locohost_cli/session.py:24-39 | `get_project_dir` answers the last `set_project_dir` value, and `set_project` never moves it |
| ProjectSession.GetProjectFiles | locohost_cli/session.py:47-50 | a non-empty cached list is returned with no change; an empty one triggers a walk of `project_dir`, or a TypeError when none is set |
| ProjectSession.GetProjectFilesStable | locohost_cli/session.py:47-50 | asking twice gives the same list, and the second call only reads the cache when the walk found files |

## Left out

- Logging, the Anthropic client and the prompt wording are not modelled. The reply is an input; a raised call is `None`.
- The git subprocesses are inputs: one success flag per command. Exit codes and output are not modelled.
- `datetime.now()` is the timestamp parameter. `os.getcwd()` is the `cwd` parameter.
- `os.listdir` order is the `listing` parameter of `Compress`. `os.walk` is the `walk` parameter of the session functions.
- Journal.Create: the entry write is assumed to succeed; the `IOError` handler of lines 59-61 is not modelled. `makedirs` creating parent directories is not modelled either.
- Journal.Update: the append or rewrite of the newest entry is assumed to succeed; the `IOError` handler of lines 107-109 is not modelled.
- Compaction.Run: the reads of `snapshot.md` (lines 127-129) and of each entry (lines 137-139) are assumed to succeed. They sit outside any `try`, so a read error would escape `_compress_cot`; the model has no such error.
- Compaction.Publish: the write of `snapshot.md` is assumed to succeed; the `IOError` handler of lines 199-202, which returns `None` before any git call, is not modelled.
- Journal.AppendJson: JSON text is not parsed. A `.json` entry whose text the model did not write as a JSON document counts as undecodable, even if its text happens to be valid JSON. Floats and duplicate keys are not modelled.
- Strings.Split: its own contract promises only at least one piece. What the pieces are is stated by the lemmas `SplitShape`, `SplitJoin` and `SplitPiecesAvoidSeparator`, kept apart so that proofs that merely mention `split` stay small.
- Json.Encode: the `indent=2` text with `ensure_ascii` escaping is given as a definition only. No decoder is proved to invert it.
- The model does not tell files from sub-directories. A sub-directory named like an entry, which would make `open` fail, is not modelled.
- `get_snapshot_data` is modelled only from its reply onward. The completions API call is not.
- The getters `get_project_dir`, `get_context_dir` and `get_project_name` are modelled as plain field reads with no contract. `_cot_journal_cache` is kept as a field that nothing after construction reads or writes.
- The `_instance` class attribute is an explicit `Option<Session>` that is passed along.
- `set_project` and `set_project_dir` are modelled with string arguments only (an optional string for `set_project_dir`). Comparisons with other Python values are not.
- The argparse `main`, the `[NO-OP]` entrypoints and `locohost-cli/locohost.py` are outside the modelled core.

=== FILE: compaction.dfy ===
/**
 `_compress_cot`: gather the previous snapshot and the Markdown entries, hand
 them to the summariser, take the compressed snapshot and a commit message out
 of its reply, overwrite `snapshot.md`, and stage and commit it with git.

 The summariser's reply, the two git outcomes and the order in which the
 directory lists its files are inputs: the reply is `None` when the call
 raised, and each git flag says whether that command exited successfully.
 */
module Compaction {
  import opened Wrappers
  import opened Strings
  import opened Paths
  import opened Markers
  import opened Journal

  const SnapshotName := "snapshot.md"

  /** The two texts the prompt carries: the previous snapshot and the entries. */
  datatype Request = Request(snapshot: string, entries: string)

  /** A git command run in the context directory. */
  datatype GitCall = Add(file: string) | Commit(message: string)

  /** Everything one call does: the resulting files, the request sent (if any),
      the git commands run in order, and the outcome — the snapshot path, `None`
      for an early return, or the IndexError of a missing opening marker. */
  datatype CompressRun = CompressRun(fs: Fs, request: Option<Request>, git: seq<GitCall>,
                                     outcome: Result<Option<string>, MarkerError>)

  /** `listing` is what `os.listdir` returns for a directory with these files:
      every name once, in some order. */
  predicate IsListing(listing: seq<string>, files: Dir) {
    && (forall k :: 0 <= k < |listing| ==> listing[k] in files)
    && (forall name :: name in files ==> name in listing)
    && (forall i, j :: 0 <= i < j < |listing| ==> listing[i] != listing[j])
  }

  /** The entries part of `_compress_cot`'s prompt: each `cot_*.md` file as a
      text-mode read returns it, followed by a blank line, in listing order;
      every other file is skipped. */
  function EntriesText(listing: seq<string>, files: Dir): (r: string)
    requires forall k :: 0 <= k < |listing| ==> listing[k] in files
    ensures r == "" <==> forall k :: 0 <= k < |listing| ==> !IsEntryName(listing[k], "md")
  {
    if |listing| == 0 then ""
    else Chunk(listing[0], files) + EntriesText(listing[1..], files)
  }

  /** What one listed file contributes to the request. */
  function Chunk(name: string, files: Dir): string
    requires name in files
  {
    if IsEntryName(name, "md") then ReadBody(files[name]) + "\n\n" else ""
  }

  /** `_compress_cot`'s reading of the previous snapshot: the text of
      `snapshot.md` as a text-mode read returns it, or the empty string. */
  function PreviousSnapshot(files: Dir): (r: string)
    ensures SnapshotName !in files ==> r == ""
    ensures forall t :: SnapshotName in files && files[SnapshotName] == Plain(t) ==> r == ReadText(t)
    ensures '\r' !in r
  {
    if SnapshotName in files then ReadBody(files[SnapshotName]) else ""
  }

  /** The two texts `_compress_cot` puts in its prompt, for a directory listed as `listing`. */
  function RequestFor(files: Dir, listing: seq<string>): Request
    requires IsListing(listing, files)
  {
    Request(PreviousSnapshot(files), EntriesText(listing, files))
  }

  /** What asking the summariser yields: nothing when the call raised, else the
      result of extracting the two sections from its reply. */
  function Extract(reply: Option<string>): (e: Option<Result<Compression, MarkerError>>)
    ensures e.None? <==> reply.None?
    ensures reply.Some? ==> (e.value.Err? <==> !Contains(reply.value, CompressedOpen) || !Contains(reply.value, CommitOpen))
  {
    match reply
    case None => None
    case Some(text) =>
      Some(ParseCompression(text))
  }

  /** The compressed content and commit message, when the extraction succeeded. */
  function Accepted(e: Option<Result<Compression, MarkerError>>): Option<Compression> {
    if e.Some? && e.value.Ok? then Some(e.value.value) else None
  }

  /** `_compress_cot(project, contextDir)` in working directory `cwd`. */
  function Compress(fs: Fs, cwd: string, contextDir: Option<string>, listing: seq<string>,
                    reply: Option<string>, addOk: bool, commitOk: bool): (r: CompressRun)
    requires ContextDir(cwd, contextDir) in fs ==> IsListing(listing, fs[ContextDir(cwd, contextDir)])
    ensures ContextDir(cwd, contextDir) !in fs || reply.None? ==> r.fs == fs && r.git == [] && r.outcome == Ok(None)
    ensures r.outcome.Err? <==>
              ContextDir(cwd, contextDir) in fs && reply.Some?
              && (!Contains(reply.value, CompressedOpen) || !Contains(reply.value, CommitOpen))
    ensures r.outcome.Err? ==> r.fs == fs && r.git == []
  {
    Run(fs, ContextDir(cwd, contextDir), listing, Extract(reply), addOk, commitOk)
  }

  /** The body of `_compress_cot` past the directory lookup, with the summariser's answer `e` given. Nothing is written
      unless the directory exists and the extraction succeeded; then only
      `snapshot.md` is (over)written, before git runs, and the commit is
      attempted only after a successful add. */
  function Run(fs: Fs, dir: string, listing: seq<string>, e: Option<Result<Compression, MarkerError>>,
               addOk: bool, commitOk: bool): (r: CompressRun)
    requires dir in fs ==> IsListing(listing, fs[dir])
    ensures dir !in fs || Accepted(e).None? ==> r.fs == fs && r.git == []
    ensures r.request.None? <==> dir !in fs
    ensures r.outcome.Ok? && r.outcome.value.Some? <==> dir in fs && Accepted(e).Some? && addOk && commitOk
    ensures r.outcome.Ok? && r.outcome.value.Some? ==> r.outcome.value.value == Join(dir, SnapshotName)
    ensures r.outcome.Err? <==> dir in fs && e.Some? && e.value.Err?
    ensures dir !in fs || e.None? ==> r.outcome == Ok(None)
  {
    if dir !in fs then CompressRun(fs, None, [], Ok(None))
    else
      var files := fs[dir];
      var request := RequestFor(files, listing);
      match e
      case None => CompressRun(fs, Some(request), [], Ok(None))
      case Some(Err(err)) => CompressRun(fs, Some(request), [], Err(err))
      case Some(Ok(c)) => Publish(fs, dir, c, request, addOk, commitOk)
  }

  /** A run whose extraction succeeded changes `snapshot.md` alone, to the
      compressed content, leaves every other file as it was, and then runs
      `git add snapshot.md` and, only if that succeeded, `git commit` with the
      extracted message. */
  lemma RunWrites(fs: Fs, dir: string, listing: seq<string>, c: Compression, addOk: bool, commitOk: bool)
    requires dir in fs && IsListing(listing, fs[dir])
    ensures var r := Run(fs, dir, listing, Some(Ok(c)), addOk, commitOk);
            && r.fs.Keys == fs.Keys
            && (forall d :: d in fs && d != dir ==> r.fs[d] == fs[d])
            && r.fs[dir].Keys == fs[dir].Keys + {SnapshotName}
            && r.fs[dir][SnapshotName] == Plain(c.content)
            && (forall name :: name in fs[dir] && name != SnapshotName ==> r.fs[dir][name] == fs[dir][name])
    ensures var r := Run(fs, dir, listing, Some(Ok(c)), addOk, commitOk);
            && |r.git| == (if addOk then 2 else 1)
            && r.git[0] == Add(SnapshotName)
            && (addOk ==> r.git[1] == Commit(c.message))
  {
    RunPublishes(fs, dir, listing, c, addOk, commitOk);
    var r := Run(fs, dir, listing, Some(Ok(c)), addOk, commitOk);
    assert r.fs == WriteFile(fs, dir, SnapshotName, Plain(c.content));
    assert FilesOf(fs, dir) == fs[dir];
  }

  /** With the directory present and the extraction done, a run publishes. */
  lemma RunPublishes(fs: Fs, dir: string, listing: seq<string>, c: Compression, addOk: bool, commitOk: bool)
    requires dir in fs && IsListing(listing, fs[dir])
    ensures var r := Run(fs, dir, listing, Some(Ok(c)), addOk, commitOk);
            && r.fs == WriteFile(fs, dir, SnapshotName, Plain(c.content))
            && r.git[0] == Add(SnapshotName)
            && (addOk ==> r.git[1] == Commit(c.message))
  {
    var files := fs[dir];
    PublishWrites(fs, dir, c, RequestFor(files, listing), addOk, commitOk);
  }

  lemma SnapshotBasename(dir: string)
    ensures Basename(Join(dir, SnapshotName)) == SnapshotName
  {
    BasenameOfJoin(dir, SnapshotName);
  }

  /** The end of `_compress_cot`, once the sections are extracted: overwrite `snapshot.md`,
      then `git add` its basename, then `git commit`, stopping at the first
      failure; the snapshot path is returned only when both succeed. */
  function Publish(fs: Fs, dir: string, c: Compression, request: Request, addOk: bool, commitOk: bool): (r: CompressRun)
    requires dir in fs
    ensures r.request == Some(request)
    ensures r.outcome.Ok? && (r.outcome.value.Some? <==> addOk && commitOk)
    ensures r.outcome.Ok? && r.outcome.value.Some? ==> r.outcome.value.value == Join(dir, SnapshotName)
    ensures |r.git| == (if addOk then 2 else 1)
  {
    var path := Join(dir, SnapshotName);
    var written := WriteFile(fs, dir, SnapshotName, Plain(c.content));
    var add := Add(Basename(path));
    if !addOk then CompressRun(written, Some(request), [add], Ok(None))
    else if !commitOk then CompressRun(written, Some(request), [add, Commit(c.message)], Ok(None))
    else CompressRun(written, Some(request), [add, Commit(c.message)], Ok(Some(path)))
  }

  /** Publishing overwrites `snapshot.md` alone, stages that file and commits
      with the extracted message only after the add succeeded. */
  lemma PublishWrites(fs: Fs, dir: string, c: Compression, request: Request, addOk: bool, commitOk: bool)
    requires dir in fs
    ensures var r := Publish(fs, dir, c, request, addOk, commitOk);
            && r.fs == WriteFile(fs, dir, SnapshotName, Plain(c.content))
            && r.git[0] == Add(SnapshotName)
            && (addOk ==> r.git[1] == Commit(c.message))
  {
    SnapshotBasename(dir);
  }

  /** `_compress_cot`'s prompt: with the directory present, the request carries the
      previous snapshot's text, or nothing when there is none, and every
      Markdown entry's text, each as Python's text-mode read returns it
      ("\r\n" and "\r" become "\n"), followed by a blank line. */
  lemma RunRequest(fs: Fs, dir: string, listing: seq<string>, e: Option<Result<Compression, MarkerError>>,
                   addOk: bool, commitOk: bool)
    requires dir in fs && IsListing(listing, fs[dir])
    ensures var r := Run(fs, dir, listing, e, addOk, commitOk);
            && r.request.Some?
            && (SnapshotName !in fs[dir] ==> r.request.value.snapshot == "")
            && (SnapshotName in fs[dir] ==> r.request.value.snapshot == ReadBody(fs[dir][SnapshotName]))
    ensures var r := Run(fs, dir, listing, e, addOk, commitOk);
            forall k :: 0 <= k < |listing| && IsEntryName(listing[k], "md") ==>
              Contains(r.request.value.entries, ReadBody(fs[dir][listing[k]]) + "\n\n")
    ensures var r := Run(fs, dir, listing, e, addOk, commitOk);
            forall k :: 0 <= k < |listing| ==>
              r.request.value.entries
              == EntriesText(listing[..k], fs[dir])
                 + (if IsEntryName(listing[k], "md") then ReadBody(fs[dir][listing[k]]) + "\n\n" else "")
                 + EntriesText(listing[k + 1..], fs[dir])
  {
    var files := fs[dir];
    var entries := EntriesText(listing, files);
    assert Run(fs, dir, listing, e, addOk, commitOk).request.value.entries == entries;
    forall k | 0 <= k < |listing| && IsEntryName(listing[k], "md")
      ensures Contains(entries, ReadBody(files[listing[k]]) + "\n\n")
    {
      EntriesTextHasEntry(listing, files, k);
    }
    forall k | 0 <= k < |listing| {
      EntriesTextAt(listing, files, k);
    }
  }

  /** Each listed file's chunk sits in the entries text between the texts of the
      files listed before it and of those listed after it. */
  lemma EntriesTextAt(listing: seq<string>, files: Dir, k: nat)
    requires forall j :: 0 <= j < |listing| ==> listing[j] in files
    requires k < |listing|
    ensures EntriesText(listing, files)
            == EntriesText(listing[..k], files) + Chunk(listing[k], files) + EntriesText(listing[k + 1..], files)
  {
    var before, one, after := listing[..k], [listing[k]], listing[k + 1..];
    assert listing == before + (one + after);
    EntriesTextAppend(one, after, files);
    EntriesTextAppend(before, one + after, files);
    EntriesTextSingle(listing[k], files);
    ConcatAssociates(EntriesText(before, files), EntriesText(one, files), EntriesText(after, files));
  }

  lemma ConcatAssociates(x: string, y: string, z: string)
    ensures x + (y + z) == x + y + z
  {
  }

  /** The entries text of a listing is that of its first part followed by that
      of the rest: chunks appear in listing order, each once. */
  lemma {:induction false} EntriesTextAppend(a: seq<string>, b: seq<string>, files: Dir)
    requires forall k :: 0 <= k < |a| ==> a[k] in files
    requires forall k :: 0 <= k < |b| ==> b[k] in files
    ensures EntriesText(a + b, files) == EntriesText(a, files) + EntriesText(b, files)
    decreases |a|
  {
    if |a| == 0 {
      assert a + b == b;
    } else {
      assert (a + b)[1..] == a[1..] + b;
      EntriesTextAppend(a[1..], b, files);
    }
  }

  /** One listed file contributes its text as read and a blank line if it is a
      Markdown entry, and nothing otherwise. */
  lemma EntriesTextSingle(name: string, files: Dir)
    requires name in files
    ensures EntriesText([name], files) == (if IsEntryName(name, "md") then ReadBody(files[name]) + "\n\n" else "")
  {
    assert [name][1..] == [];
  }

  /** Files that are not `cot_*.md` do not change the request: a directory that
      agrees on every Markdown entry yields the same entries text. */
  lemma RunRequestIgnoresOthers(fs: Fs, dir: string, listing: seq<string>, other: Dir,
                                e: Option<Result<Compression, MarkerError>>, addOk: bool, commitOk: bool)
    requires dir in fs && IsListing(listing, fs[dir]) && IsListing(listing, other)
    requires forall name :: name in fs[dir] && IsEntryName(name, "md") ==> fs[dir][name] == other[name]
    ensures Run(fs[dir := other], dir, listing, e, addOk, commitOk).request.value.entries
            == Run(fs, dir, listing, e, addOk, commitOk).request.value.entries
  {
    assert fs[dir := other][dir] == other;
    EntriesTextIgnoresOthers(listing, fs[dir], other);
  }

  /** Only Markdown entries feed the request: files that are not `cot_*.md`,
      JSON entries among them, can change without changing it. */
  lemma {:induction false} EntriesTextIgnoresOthers(listing: seq<string>, files: Dir, other: Dir)
    requires forall k :: 0 <= k < |listing| ==> listing[k] in files && listing[k] in other
    requires forall k :: 0 <= k < |listing| && IsEntryName(listing[k], "md") ==> files[listing[k]] == other[listing[k]]
    ensures EntriesText(listing, files) == EntriesText(listing, other)
    decreases |listing|
  {
    if |listing| > 0 {
      EntriesTextIgnoresOthers(listing[1..], files, other);
    }
  }

  /** Every Markdown entry's text, followed by a blank line, is part of the request. */
  lemma {:induction false} EntriesTextHasEntry(listing: seq<string>, files: Dir, k: nat)
    requires forall j :: 0 <= j < |listing| ==> listing[j] in files
    requires k < |listing| && IsEntryName(listing[k], "md")
    ensures Contains(EntriesText(listing, files), ReadBody(files[listing[k]]) + "\n\n")
    decreases k
  {
    var head := Chunk(listing[0], files);
    var tail := EntriesText(listing[1..], files);
    if k == 0 {
      ContainsPrefix(head, tail);
    } else {
      EntriesTextHasEntry(listing[1..], files, k - 1);
      assert listing[1..][k - 1] == listing[k];
      ContainsAfter(head, tail, ReadBody(files[listing[k]]) + "\n\n");
    }
  }

  /** Chaining two `_compress_cot` calls: what one compression writes is what the next
      one sends as the previous snapshot, after the read's newline translation, so
      unchanged when it holds no carriage return. */
  lemma CompressedBecomesPrevious(fs: Fs, dir: string, listing: seq<string>, c: Compression,
                                  addOk: bool, commitOk: bool, next: seq<string>,
                                  e: Option<Result<Compression, MarkerError>>)
    requires dir in fs && IsListing(listing, fs[dir])
    requires IsListing(next, Run(fs, dir, listing, Some(Ok(c)), addOk, commitOk).fs[dir])
    ensures var r := Run(fs, dir, listing, Some(Ok(c)), addOk, commitOk);
            var again := Run(r.fs, dir, next, e, addOk, commitOk);
            again.request.Some? && again.request.value.snapshot == ReadText(c.content)
    ensures var r := Run(fs, dir, listing, Some(Ok(c)), addOk, commitOk);
            '\r' !in c.content ==> Run(r.fs, dir, next, e, addOk, commitOk).request.value.snapshot == c.content
  {
    RunWrites(fs, dir, listing, c, addOk, commitOk);
    if '\r' !in c.content {
      ReadTextPlain(c.content);
    }
  }

  /** Compressing twice with the same answer leaves the files as the first call did. */
  lemma RunTwice(fs: Fs, dir: string, listing: seq<string>, e: Option<Result<Compression, MarkerError>>,
                 addOk: bool, commitOk: bool, next: seq<string>)
    requires dir in fs ==> IsListing(listing, fs[dir])
    requires dir in fs ==> IsListing(next, Run(fs, dir, listing, e, addOk, commitOk).fs[dir])
    ensures var r := Run(fs, dir, listing, e, addOk, commitOk);
            Run(r.fs, dir, next, e, addOk, commitOk).fs == r.fs
  {
    if dir in fs && Accepted(e).Some? {
      var c := Accepted(e).value;
      assert e == Some(Ok(c));
      RunPublishes(fs, dir, listing, c, addOk, commitOk);
      var r := Run(fs, dir, listing, e, addOk, commitOk);
      RunPublishes(r.fs, dir, next, c, addOk, commitOk);
      WriteFileTwice(fs, dir, SnapshotName, Plain(c.content));
    }
  }

  /** `snapshot.md` is not a journal entry, so no compression changes the journal. */
  lemma RunKeepsJournal(fs: Fs, dir: string, listing: seq<string>, e: Option<Result<Compression, MarkerError>>,
                        addOk: bool, commitOk: bool, fmt: string)
    requires dir in fs && IsListing(listing, fs[dir])
    ensures var r := Run(fs, dir, listing, e, addOk, commitOk);
            && Entries(r.fs[dir], fmt) == Entries(fs[dir], fmt)
            && (forall name :: name in Entries(fs[dir], fmt) ==> r.fs[dir][name] == fs[dir][name])
  {
    SnapshotNotEntry(fmt);
    if Accepted(e).Some? {
      var c := Accepted(e).value;
      assert e == Some(Ok(c));
      RunPublishes(fs, dir, listing, c, addOk, commitOk);
      assert FilesOf(fs, dir) == fs[dir];
      EntriesAfterWrite(fs[dir], SnapshotName, Plain(c.content), fmt);
    }
  }

  lemma SnapshotNotEntry(fmt: string)
    ensures !IsEntryName(SnapshotName, fmt)
  {
    assert SnapshotName[0] != EntryPrefix[0];
  }

  /** A reply laid out as the prompt asks, with clean texts, is taken apart
      exactly: the snapshot becomes the compressed content and the commit
      carries the message. */
  lemma ExtractWellFormedReply(content: string, message: string)
    requires Clean(content) && Clean(message)
    ensures Extract(Some(CompressionReply(content, message))) == Some(Ok(Compression(content, message)))
  {
    ParseCompressionRoundTrip(content, message);
  }

  /** With a well-formed reply, `_compress_cot` replaces the snapshot with the
      compressed content, commits with the message, and returns the snapshot
      path exactly when both git commands succeed. */
  lemma CompressWellFormedReply(fs: Fs, cwd: string, contextDir: Option<string>, listing: seq<string>,
                                content: string, message: string, addOk: bool, commitOk: bool)
    requires ContextDir(cwd, contextDir) in fs
    requires IsListing(listing, fs[ContextDir(cwd, contextDir)])
    requires Clean(content) && Clean(message)
    ensures var dir := ContextDir(cwd, contextDir);
            var r := Compress(fs, cwd, contextDir, listing, Some(CompressionReply(content, message)), addOk, commitOk);
            && dir in r.fs && SnapshotName in r.fs[dir] && r.fs[dir][SnapshotName] == Plain(content)
            && r.git == (if addOk then [Add(SnapshotName), Commit(message)] else [Add(SnapshotName)])
            && r.outcome == (if addOk && commitOk then Ok(Some(Join(dir, SnapshotName))) else Ok(None))
  {
    var dir := ContextDir(cwd, contextDir);
    var c := Compression(content, message);
    ExtractWellFormedReply(content, message);
    RunWrites(fs, dir, listing, c, addOk, commitOk);
    var r := Run(fs, dir, listing, Some(Ok(c)), addOk, commitOk);
    assert r.git == (if addOk then [Add(SnapshotName), Commit(message)] else [Add(SnapshotName)]);
  }
}

=== FILE: decimal.dfy ===
/**
 Decimal rendering of numbers as Python's `str(n)` and the format spec `{n:04d}`
 produce it, the value of a digit string read back, and the fact that four-digit
 zero-padded numbers sort as strings in the same order as numbers.
 */
module Decimal {
  import opened Strings

  predicate IsDigit(c: char) {
    '0' <= c <= '9'
  }

  predicate AllDigits(s: string) {
    forall k :: 0 <= k < |s| ==> IsDigit(s[k])
  }

  function DigitChar(d: nat): (c: char)
    requires d < 10
    ensures IsDigit(c)
  {
    ('0' as int + d) as char
  }

  function DigitValue(c: char): (d: nat)
    requires IsDigit(c)
    ensures d < 10
  {
    c as int - '0' as int
  }

  function Pow10(k: nat): (p: nat)
    ensures p >= 1
  {
    if k == 0 then 1 else 10 * Pow10(k - 1)
  }

  /** Python's `str(n)` for a natural number. */
  function NatToString(n: nat): (r: string)
    ensures |r| >= 1 && AllDigits(r)
    ensures |r| == 1 || r[0] != '0'
    decreases n
  {
    if n < 10 then [DigitChar(n)] else NatToString(n / 10) + [DigitChar(n % 10)]
  }

  /** Python's `str(i)` for an integer: a minus sign before the magnitude when negative. */
  function IntToString(i: int): (r: string)
    ensures |r| >= 1
  {
    if i < 0 then "-" + NatToString(-i) else NatToString(i)
  }

  /** The number a string of decimal digits denotes; leading zeros are allowed. */
  function Value(s: string): nat
    requires AllDigits(s)
  {
    if |s| == 0 then 0 else Value(s[..|s| - 1]) * 10 + DigitValue(s[|s| - 1])
  }

  function Zeros(k: nat): (r: string)
    ensures |r| == k && AllDigits(r)
    ensures forall j :: 0 <= j < k ==> r[j] == '0'
  {
    if k == 0 then "" else Zeros(k - 1) + "0"
  }

  /** Python's `{n:04d}`: `str(n)` padded on the left with zeros to at least four characters. */
  function Pad4(n: nat): (r: string)
    ensures AllDigits(r) && |r| >= 4
    ensures n <= 9999 ==> |r| == 4
    ensures n > 9999 ==> r == NatToString(n)
  {
    var d := NatToString(n);
    NatToStringShort(n);
    if |d| >= 4 then d else Zeros(4 - |d|) + d
  }

  /** Numbers below 10000 have at most four digits, numbers above 9999 at least five. */
  lemma {:induction false} NatToStringShort(n: nat)
    ensures n <= 9999 <==> |NatToString(n)| <= 4
  {
    NatToStringLength(n);
    var len := |NatToString(n)|;
    assert Pow10(4) == 10000;
    if len <= 4 {
      Pow10Monotone(len, 4);
    } else {
      Pow10Monotone(4, len - 1);
    }
  }

  lemma {:induction false} Pow10Monotone(a: nat, b: nat)
    requires a <= b
    ensures Pow10(a) <= Pow10(b)
    decreases b
  {
    if a < b {
      Pow10Monotone(a, b - 1);
    }
  }

  lemma {:induction false} NatToStringLength(n: nat)
    ensures Pow10(|NatToString(n)| - 1) <= n + (if n == 0 then 1 else 0)
    ensures n < Pow10(|NatToString(n)|)
    decreases n
  {
    if n >= 10 {
      NatToStringLength(n / 10);
    }
  }

  /** Reading back what `str(n)` wrote gives `n`. */
  lemma {:induction false} ValueOfNatToString(n: nat)
    ensures Value(NatToString(n)) == n
    decreases n
  {
    if n >= 10 {
      var s := NatToString(n);
      ValueOfNatToString(n / 10);
      assert s[..|s| - 1] == NatToString(n / 10);
    }
  }

  /** Leading zeros do not change the value of a digit string. */
  lemma {:induction false} ValueIgnoresZeros(k: nat, s: string)
    requires AllDigits(s)
    ensures AllDigits(Zeros(k) + s) && Value(Zeros(k) + s) == Value(s)
    decreases |s|
  {
    var z := Zeros(k);
    if |s| == 0 {
      assert z + s == z;
      ZerosValue(k);
    } else {
      var t := z + s;
      assert t[..|t| - 1] == z + s[..|s| - 1];
      ValueIgnoresZeros(k, s[..|s| - 1]);
    }
  }

  lemma {:induction false} ZerosValue(k: nat)
    ensures Value(Zeros(k)) == 0
  {
    if k > 0 {
      var z := Zeros(k);
      assert z[..k - 1] == Zeros(k - 1);
      ZerosValue(k - 1);
      assert DigitValue(z[k - 1]) == 0;
      assert Value(z) == 0 * 10 + 0;
    }
  }

  /** Reading back what `{n:04d}` wrote gives `n`. */
  lemma Pad4RoundTrip(n: nat)
    ensures Value(Pad4(n)) == n
  {
    var d := NatToString(n);
    ValueOfNatToString(n);
    if |d| < 4 {
      ValueIgnoresZeros(4 - |d|, d);
    }
  }

  /** `{n:04d}` gives different strings for different numbers. */
  lemma Pad4Injective(m: nat, n: nat)
    requires Pad4(m) == Pad4(n)
    ensures m == n
  {
    Pad4RoundTrip(m);
    Pad4RoundTrip(n);
  }

  /** Appending a digit to a number split as `d * p + v` keeps the split. */
  lemma AppendDigit(d: nat, p: nat, v: nat, last: nat)
    ensures (d * p + v) * 10 + last == d * (10 * p) + (v * 10 + last)
  {
  }

  /** The value of a digit string split after its first digit. */
  lemma {:induction false} ValueFront(s: string)
    requires |s| >= 1 && AllDigits(s)
    ensures Value(s) == DigitValue(s[0]) * Pow10(|s| - 1) + Value(s[1..])
    decreases |s|
  {
    if |s| > 1 {
      var init := s[..|s| - 1];
      var tail := s[1..];
      ValueFront(init);
      assert init[0] == s[0];
      assert init[1..] == tail[..|tail| - 1];
      assert tail[|tail| - 1] == s[|s| - 1];
      var last := DigitValue(s[|s| - 1]);
      assert Value(tail) == Value(init[1..]) * 10 + last;
      assert Value(s) == Value(init) * 10 + last;
      AppendDigit(DigitValue(s[0]), Pow10(|s| - 2), Value(init[1..]), last);
    }
  }

  lemma {:induction false} ValueBound(s: string)
    requires AllDigits(s)
    ensures Value(s) < Pow10(|s|)
    decreases |s|
  {
    if |s| > 0 {
      ValueBound(s[..|s| - 1]);
    }
  }

  lemma LeadingDigitDominates(da: nat, db: nat, p: nat, ra: nat, rb: nat)
    requires da < db && ra < p
    ensures da * p + ra < db * p + rb
  {
    assert (db - da - 1) * p >= 0;
    assert db * p == da * p + p + (db - da - 1) * p;
  }

  /** Among digit strings of one length, string order is numeric order. */
  lemma {:induction false} LexLessDigits(a: string, b: string)
    requires |a| == |b| && AllDigits(a) && AllDigits(b)
    ensures LexLess(a, b) <==> Value(a) < Value(b)
    decreases |a|
  {
    if |a| > 0 {
      var p := Pow10(|a| - 1);
      ValueFront(a);
      ValueFront(b);
      ValueBound(a[1..]);
      ValueBound(b[1..]);
      var da, db := DigitValue(a[0]), DigitValue(b[0]);
      if a[0] == b[0] {
        LexLessDigits(a[1..], b[1..]);
      } else if da < db {
        LeadingDigitDominates(da, db, p, Value(a[1..]), Value(b[1..]));
      } else {
        LeadingDigitDominates(db, da, p, Value(b[1..]), Value(a[1..]));
      }
    }
  }

  /** Below 10000, `{i:04d} < {j:04d}` as strings exactly when `i < j`. */
  lemma Pad4Order(i: nat, j: nat)
    requires i <= 9999 && j <= 9999
    ensures LexLess(Pad4(i), Pad4(j)) <==> i < j
  {
    LexLessDigits(Pad4(i), Pad4(j));
    Pad4RoundTrip(i);
    Pad4RoundTrip(j);
  }
}

=== FILE: journal.dfy ===
/**
 The chain-of-thought journal: numbered entry files `cot_NNNN.<format>` inside a
 context directory, created by `_create_cot` and extended by `_update_cot`.

 The file system is a map from directory path to the files directly inside it.
 A file written with `json.dumps(..., indent=2)` is kept as the JSON value it
 encodes; its text is `Encode(v, 0)`.
 */
module Journal {
  import opened Wrappers
  import opened Strings
  import opened Decimal
  import opened Paths
  import opened Json

  datatype Body = Plain(text: string) | Structured(doc: JsonValue)

  /** The files of one directory, by name. */
  type Dir = map<string, Body>

  /** Directories by path. */
  type Fs = map<string, Dir>

  /** The characters stored in the file: written text as is (writes on POSIX
      translate nothing), a JSON document as `json.dump(..., indent=2)` writes it. */
  function BodyText(b: Body): string {
    match b
    case Plain(t) => t
    case Structured(v) => Encode(v, 0)
  }

  /** `open(path, 'r').read()`: the stored characters with universal newlines. */
  function ReadBody(b: Body): string {
    ReadText(BodyText(b))
  }

  const EntryPrefix := "cot_"

  /** The filter both operations apply to `os.listdir`: starts with `cot_` and
      ends with `.` and the format. Any such name counts, numbered or not. */
  predicate IsEntryName(name: string, fmt: string) {
    StartsWith(name, EntryPrefix) && EndsWith(name, "." + fmt)
  }

  function Entries(files: Dir, fmt: string): set<string> {
    set name | name in files && IsEntryName(name, fmt)
  }

  /** `f'cot_{n:04d}.{format}'`. */
  function EntryName(n: nat, fmt: string): (r: string)
    ensures IsEntryName(r, fmt)
  {
    Affixes(EntryPrefix, Pad4(n), "." + fmt);
    EntryPrefix + (Pad4(n) + ("." + fmt))
  }

  /** The four-or-more digits of an entry name are exactly `{n:04d}`. */
  lemma EntryNameDigits(n: nat, fmt: string)
    ensures var r := EntryName(n, fmt);
            |r| == |EntryPrefix| + |Pad4(n)| + 1 + |fmt|
            && r[|EntryPrefix|..|EntryPrefix| + |Pad4(n)|] == Pad4(n)
  {
  }

  /** Different numbers never share an entry name. */
  lemma EntryNameInjective(m: nat, n: nat, fmt: string)
    requires EntryName(m, fmt) == EntryName(n, fmt)
    ensures m == n
  {
    EntryNameDigits(m, fmt);
    EntryNameDigits(n, fmt);
    Pad4Injective(m, n);
  }

  /** Below 10000, entry names sort as strings in the order of their numbers. */
  lemma EntryOrder(j: nat, k: nat, fmt: string)
    requires j <= 9999 && k <= 9999
    ensures LexLess(EntryName(j, fmt), EntryName(k, fmt)) <==> j < k
  {
    if j == k {
      LexLessIrreflexive(EntryName(j, fmt));
    } else {
      var suffix := "." + fmt;
      LexLessCommonPrefix(EntryPrefix, Pad4(j) + suffix, Pad4(k) + suffix);
      if Pad4(j) == Pad4(k) {
        Pad4Injective(j, k);
      }
      LexLessCommonSuffix(Pad4(j), Pad4(k), suffix);
      Pad4Order(j, k);
    }
  }

  /** The names `cot_0001.<fmt>` up to `cot_<k>.<fmt>`: a journal numbered without gaps. */
  function Numbered(k: nat, fmt: string): set<string> {
    if k == 0 then {} else Numbered(k - 1, fmt) + {EntryName(k, fmt)}
  }

  lemma {:induction false} NumberedMembers(k: nat, fmt: string)
    ensures forall y :: y in Numbered(k, fmt) <==> exists j :: 1 <= j <= k && y == EntryName(j, fmt)
  {
    if k > 0 {
      NumberedMembers(k - 1, fmt);
    }
  }

  /** The next number's name is not yet taken in a gapless journal. */
  lemma NumberedFresh(k: nat, fmt: string)
    ensures EntryName(k + 1, fmt) !in Numbered(k, fmt)
  {
    NumberedMembers(k, fmt);
    if EntryName(k + 1, fmt) in Numbered(k, fmt) {
      var j :| 1 <= j <= k && EntryName(k + 1, fmt) == EntryName(j, fmt);
      EntryNameInjective(k + 1, j, fmt);
    }
  }

  lemma {:induction false} NumberedSize(k: nat, fmt: string)
    ensures |Numbered(k, fmt)| == k
  {
    if k > 0 {
      NumberedSize(k - 1, fmt);
      NumberedFresh(k - 1, fmt);
    }
  }

  /** `_create_cot`'s Markdown text of a new entry. */
  function MdEntry(n: nat, ts: string, project: string, context: string): (r: string)
    ensures StartsWith(r, "# Chain of Thought Entry " + NatToString(n) + "\n\n")
    ensures EndsWith(r, context)
  {
    var head := "# Chain of Thought Entry " + NatToString(n) + "\n\n";
    var r := head + "Created: " + ts + "\n\n" + "Project: " + project + "\n\n" + "## Entry\n\n" + context;
    assert r[..|head|] == head;
    assert r[|r| - |context|..] == context;
    r
  }

  /** `_create_cot`'s JSON document of a new entry. Its fields read back as
      the values written, and it has no `updates` yet. */
  function JsonEntry(n: nat, ts: string, project: string, context: string): (r: JsonValue)
    ensures r.JObj?
    ensures Lookup(r.fields, "entry_number") == Some(JInt(n)) && Lookup(r.fields, "created") == Some(JStr(ts))
    ensures Lookup(r.fields, "project") == Some(JStr(project)) && Lookup(r.fields, "content") == Some(JStr(context))
    ensures Lookup(r.fields, "updates") == None
  {
    var fields := EntryFields(n, ts, project, context);
    EntryNumberField(n, ts, project, context);
    EntryCreatedField(n, ts, project, context);
    EntryProjectField(n, ts, project, context);
    EntryContentField(n, ts, project, context);
    EntryHasNoUpdates(n, ts, project, context);
    JObj(fields)
  }

  /** The four fields of a new JSON entry, in the order they are written. */
  function EntryFields(n: nat, ts: string, project: string, context: string): seq<(string, JsonValue)> {
    [("entry_number", JInt(n)), ("created", JStr(ts)), ("project", JStr(project)), ("content", JStr(context))]
  }

  lemma EntryNumberField(n: nat, ts: string, project: string, context: string)
    ensures Lookup(EntryFields(n, ts, project, context), "entry_number") == Some(JInt(n))
  {
    LookupAt(EntryFields(n, ts, project, context), 0, "entry_number");
  }

  lemma EntryCreatedField(n: nat, ts: string, project: string, context: string)
    ensures Lookup(EntryFields(n, ts, project, context), "created") == Some(JStr(ts))
  {
    LookupAt(EntryFields(n, ts, project, context), 1, "created");
  }

  lemma EntryProjectField(n: nat, ts: string, project: string, context: string)
    ensures Lookup(EntryFields(n, ts, project, context), "project") == Some(JStr(project))
  {
    LookupAt(EntryFields(n, ts, project, context), 2, "project");
  }

  lemma EntryHasNoUpdates(n: nat, ts: string, project: string, context: string)
    ensures Lookup(EntryFields(n, ts, project, context), "updates") == None
  {
    assert !HasKey(EntryFields(n, ts, project, context), "updates");
  }

  lemma EntryContentField(n: nat, ts: string, project: string, context: string)
    ensures Lookup(EntryFields(n, ts, project, context), "content") == Some(JStr(context))
  {
    LookupAt(EntryFields(n, ts, project, context), 3, "content");
  }

  /** The new entry file's body for a supported format. */
  function NewEntry(n: nat, fmt: string, ts: string, project: string, context: string): Option<Body> {
    if fmt == "md" then Some(Plain(MdEntry(n, ts, project, context)))
    else if fmt == "json" then Some(Structured(JsonEntry(n, ts, project, context)))
    else None
  }

  /** The files of `dir`, or none if it does not exist. */
  function FilesOf(fs: Fs, dir: string): Dir {
    if dir in fs then fs[dir] else map[]
  }

  /** Writing body `b` to file `name` of directory `dir`: that one file changes. */
  function WriteFile(fs: Fs, dir: string, name: string, b: Body): (r: Fs)
    ensures r.Keys == fs.Keys + {dir}
    ensures forall d :: d in fs && d != dir ==> r[d] == fs[d]
    ensures r[dir].Keys == FilesOf(fs, dir).Keys + {name} && r[dir][name] == b
    ensures forall other :: other in FilesOf(fs, dir) && other != name ==> r[dir][other] == FilesOf(fs, dir)[other]
  {
    fs[dir := FilesOf(fs, dir)[name := b]]
  }

  /** Writing the same body to the same file twice is writing it once. */
  lemma WriteFileTwice(fs: Fs, dir: string, name: string, b: Body)
    ensures WriteFile(WriteFile(fs, dir, name, b), dir, name, b) == WriteFile(fs, dir, name, b)
  {
    var once := WriteFile(fs, dir, name, b);
    assert once[dir][name := b] == once[dir];
  }

  /** `os.makedirs(dir, exist_ok=True)`. */
  function MakeDir(fs: Fs, dir: string): (r: Fs)
    ensures r.Keys == fs.Keys + {dir} && r[dir] == FilesOf(fs, dir)
    ensures forall d :: d in fs ==> r[d] == fs[d]
  {
    fs[dir := FilesOf(fs, dir)]
  }

  /** The number `_create_cot` gives the next entry: one past the count of
      existing entry names. */
  function NextNumber(files: Dir, fmt: string): (n: nat)
    ensures n >= 1
    ensures forall k: nat :: Entries(files, fmt) == Numbered(k, fmt) ==> n == k + 1 && EntryName(n, fmt) !in files
  {
    GaplessNext(files, fmt);
    |Entries(files, fmt)| + 1
  }

  /** A directory whose entries are numbered 1..k without gaps has k of them,
      and holds no file named for entry k+1. */
  lemma GaplessNext(files: Dir, fmt: string)
    ensures forall k: nat :: Entries(files, fmt) == Numbered(k, fmt) ==>
              |Entries(files, fmt)| == k && EntryName(k + 1, fmt) !in files
  {
    forall k: nat | Entries(files, fmt) == Numbered(k, fmt)
      ensures |Entries(files, fmt)| == k && EntryName(k + 1, fmt) !in files
    {
      NumberedSize(k, fmt);
      NumberedFresh(k, fmt);
    }
  }

  /** `_create_cot(project, context, fmt, contextDir)` run in working directory
      `cwd` at time `ts`. The directory is created even when the format turns
      out to be unsupported; a supported format adds the entry numbered one past
      the count of existing entries, replacing a file of that name if one exists. */
  function Create(fs: Fs, project: string, context: string, fmt: string, cwd: string,
                  contextDir: Option<string>, ts: string): (r: Fs)
    ensures var dir := ContextDir(cwd, contextDir);
            && r.Keys == fs.Keys + {dir}
            && (forall d :: d in fs && d != dir ==> r[d] == fs[d])
    ensures var dir := ContextDir(cwd, contextDir);
            forall name :: name in FilesOf(fs, dir) && name != EntryName(NextNumber(FilesOf(fs, dir), fmt), fmt) ==>
              name in r[dir] && r[dir][name] == FilesOf(fs, dir)[name]
    ensures var dir := ContextDir(cwd, contextDir);
            var name := EntryName(NextNumber(FilesOf(fs, dir), fmt), fmt);
            && (fmt == "md" || fmt == "json" ==>
                  && r[dir].Keys == FilesOf(fs, dir).Keys + {name}
                  && Entries(r[dir], fmt) == Entries(FilesOf(fs, dir), fmt) + {name})
            && (fmt != "md" && fmt != "json" ==> r[dir] == FilesOf(fs, dir))
  {
    var dir := ContextDir(cwd, contextDir);
    var files := FilesOf(fs, dir);
    var n := NextNumber(files, fmt);
    var entry := NewEntry(n, fmt, ts, project, context);
    if entry.None? then MakeDir(fs, dir)
    else
      EntriesAfterWrite(files, EntryName(n, fmt), entry.value, fmt);
      WriteFile(MakeDir(fs, dir), dir, EntryName(n, fmt), entry.value)
  }

  /** Writing a file adds its name to the entries exactly when it is an entry name. */
  lemma EntriesAfterWrite(files: Dir, name: string, b: Body, fmt: string)
    ensures Entries(files[name := b], fmt)
            == Entries(files, fmt) + (if IsEntryName(name, fmt) then {name} else {})
  {
  }

  /** What `_create_cot` writes into the new entry: the header with its number,
      the project, and the context text (the checks of test_create_cot). */
  lemma CreateWritesEntry(fs: Fs, project: string, context: string, fmt: string, cwd: string,
                          contextDir: Option<string>, ts: string)
    requires fmt == "md" || fmt == "json"
    ensures var dir := ContextDir(cwd, contextDir);
            var n := |Entries(FilesOf(fs, dir), fmt)| + 1;
            var r := Create(fs, project, context, fmt, cwd, contextDir, ts);
            && EntryName(n, fmt) in r[dir]
            && (fmt == "md" ==> r[dir][EntryName(n, fmt)] == Plain(MdEntry(n, ts, project, context)))
            && (fmt == "json" ==> r[dir][EntryName(n, fmt)] == Structured(JsonEntry(n, ts, project, context)))
  {
  }

  /** The Markdown entry mentions its number, its project and the context verbatim. */
  lemma MdEntryMentions(n: nat, ts: string, project: string, context: string)
    ensures var r := MdEntry(n, ts, project, context);
            && Contains(r, "# Chain of Thought Entry " + NatToString(n))
            && Contains(r, "Project: " + project)
            && Contains(r, context)
  {
    var title := "# Chain of Thought Entry " + NatToString(n);
    var pre := title + "\n\n" + "Created: " + ts + "\n\n";
    var tail := "\n\n" + "## Entry\n\n" + context;
    var r := MdEntry(n, ts, project, context);
    assert r == pre + ("Project: " + project) + tail;
    assert r[|pre|..|pre| + |"Project: " + project|] == "Project: " + project;
    assert OccursAt(r, "Project: " + project, |pre|);
    assert r[0..|title|] == title;
    assert OccursAt(r, title, 0);
    assert r[|r| - |context|..|r|] == context;
    assert OccursAt(r, context, |r| - |context|);
  }

  /** In a journal numbered 1..k without gaps, a new entry gets the next number,
      a name not yet taken, and the journal stays gapless. */
  lemma CreateKeepsNumbering(fs: Fs, project: string, context: string, fmt: string, cwd: string,
                             contextDir: Option<string>, ts: string, k: nat)
    requires fmt == "md" || fmt == "json"
    requires Entries(FilesOf(fs, ContextDir(cwd, contextDir)), fmt) == Numbered(k, fmt)
    ensures var dir := ContextDir(cwd, contextDir);
            var r := Create(fs, project, context, fmt, cwd, contextDir, ts);
            && EntryName(k + 1, fmt) !in FilesOf(fs, dir)
            && Entries(r[dir], fmt) == Numbered(k + 1, fmt)
            && EntryName(k + 1, fmt) in r[dir]
  {
    var dir := ContextDir(cwd, contextDir);
    var files := FilesOf(fs, dir);
    assert NextNumber(files, fmt) == k + 1;
    assert Numbered(k + 1, fmt) == Numbered(k, fmt) + {EntryName(k + 1, fmt)};
  }

  /** The count-based numbering reuses a name after a gap: with only entry 2
      left, the next entry is numbered 2 again and replaces the existing file. */
  lemma CreateOverwritesAfterGap(fs: Fs, project: string, context: string, cwd: string,
                                 contextDir: Option<string>, ts: string)
    requires Entries(FilesOf(fs, ContextDir(cwd, contextDir)), "md") == {EntryName(2, "md")}
    ensures var dir := ContextDir(cwd, contextDir);
            var r := Create(fs, project, context, "md", cwd, contextDir, ts);
            && EntryName(2, "md") in FilesOf(fs, dir)
            && r[dir][EntryName(2, "md")] == Plain(MdEntry(2, ts, project, context))
            && Entries(r[dir], "md") == {EntryName(2, "md")}
  {
    var dir := ContextDir(cwd, contextDir);
    assert EntryName(2, "md") in Entries(FilesOf(fs, dir), "md");
  }

  /** The errors `_update_cot` lets escape when a JSON entry cannot be extended:
      the file is not JSON, its top level is not an object, or its `updates`
      value cannot have a list appended to it. */
  datatype JournalError = NotJson | NotAnObject | UpdatesNotList

  /** `data.get('updates', [])` when it is a list. */
  function UpdatesOf(fields: seq<(string, JsonValue)>): seq<JsonValue> {
    match Lookup(fields, "updates")
    case Some(JArr(items)) => items
    case _ => []
  }

  /** One record `_update_cot` appends to a JSON entry's `updates`, holding the timestamp and the context. */
  function UpdateRecord(ts: string, context: string): (r: JsonValue)
    ensures r.JObj? && |r.fields| == 2
    ensures Lookup(r.fields, "timestamp") == Some(JStr(ts)) && Lookup(r.fields, "content") == Some(JStr(context))
  {
    var fields := [("timestamp", JStr(ts)), ("content", JStr(context))];
    LookupAt(fields, 1, "content");
    JObj(fields)
  }

  /** The text `_update_cot` appends to a Markdown entry: a blank line, the update
      heading carrying the timestamp, another blank line, then the context. */
  function MdUpdate(ts: string, context: string): (r: string)
    ensures StartsWith(r, "\n\n## Update: " + ts + "\n\n") && EndsWith(r, context)
  {
    var head := "\n\n## Update: " + ts + "\n\n";
    var r := head + context;
    assert r[..|head|] == head;
    assert r[|r| - |context|..] == context;
    r
  }

  /** `_update_cot`'s Markdown append: the entry opened for appending keeps its old text as a
      prefix and gains the update text. */
  function AppendMd(b: Body, ts: string, context: string): (r: Body)
    ensures r.Plain? && StartsWith(r.text, BodyText(b)) && EndsWith(r.text, context)
    ensures |r.text| == |BodyText(b)| + |MdUpdate(ts, context)|
  {
    var prior := BodyText(b);
    var t := prior + MdUpdate(ts, context);
    assert t[..|prior|] == prior;
    assert t[|t| - |context|..] == context;
    Plain(t)
  }

  /** `_update_cot`'s JSON update: load the document, set `updates` to the old list plus one
      record, and write it back. */
  function AppendJson(b: Body, ts: string, context: string): (r: Result<Body, JournalError>)
    ensures r.Err? <==>
              || b.Plain? || !b.doc.JObj?
              || (Lookup(b.doc.fields, "updates").Some? && !Lookup(b.doc.fields, "updates").value.JArr?)
    ensures r.Ok? ==>
              && r.value.Structured? && r.value.doc.JObj?
              && Lookup(r.value.doc.fields, "updates") == Some(JArr(UpdatesOf(b.doc.fields) + [UpdateRecord(ts, context)]))
              && (forall key :: key != "updates" ==> Lookup(r.value.doc.fields, key) == Lookup(b.doc.fields, key))
              && |r.value.doc.fields| >= |b.doc.fields|
              && (forall k :: 0 <= k < |b.doc.fields| ==> r.value.doc.fields[k].0 == b.doc.fields[k].0)
  {
    match b
    case Plain(_) => Err(NotJson)
    case Structured(v) =>
      if !v.JObj? then Err(NotAnObject)
      else
        match Lookup(v.fields, "updates")
        case None =>
          assert [] + [UpdateRecord(ts, context)] == [UpdateRecord(ts, context)];
          Ok(Structured(JObj(Store(v.fields, "updates", JArr([UpdateRecord(ts, context)])))))
        case Some(JArr(items)) =>
          Ok(Structured(JObj(Store(v.fields, "updates", JArr(items + [UpdateRecord(ts, context)])))))
        case Some(_) => Err(UpdatesNotList)
  }

  /** `_update_cot(project, context, fmt, contextDir)` in working directory `cwd`
      at time `ts`. Without the context directory it creates an entry instead;
      with no entry of the format it does nothing; otherwise it extends the
      entry whose name is the greatest string among the entry names. */
  function Update(fs: Fs, project: string, context: string, fmt: string, cwd: string,
                  contextDir: Option<string>, ts: string): (r: Result<Fs, JournalError>)
    ensures var dir := ContextDir(cwd, contextDir);
            dir in fs && r.Ok? ==>
              && r.value.Keys == fs.Keys
              && (forall d :: d in fs && d != dir ==> r.value[d] == fs[d])
              && r.value[dir].Keys == fs[dir].Keys
              && Entries(r.value[dir], fmt) == Entries(fs[dir], fmt)
    ensures var dir := ContextDir(cwd, contextDir);
            dir in fs && r.Ok? ==>
              forall name :: name in fs[dir] && r.value[dir][name] != fs[dir][name] ==>
                Entries(fs[dir], fmt) != {} && name == LexMax(Entries(fs[dir], fmt))
    ensures var dir := ContextDir(cwd, contextDir);
            r.Err? ==> fmt == "json" && dir in fs && Entries(fs[dir], fmt) != {}
  {
    var dir := ContextDir(cwd, contextDir);
    if dir !in fs then Ok(Create(fs, project, context, fmt, cwd, Some(dir), ts))
    else
      match Extend(fs[dir], fmt, ts, context)
      case Err(e) => Err(e)
      case Ok(files) => Ok(fs[dir := files])
  }

  /** `_update_cot` on the files of an existing context directory: nothing to do
      without an entry of the format, else the entry with the greatest name is
      extended and no other file changes. */
  function Extend(files: Dir, fmt: string, ts: string, context: string): (r: Result<Dir, JournalError>)
    ensures r.Ok? ==> r.value.Keys == files.Keys && Entries(r.value, fmt) == Entries(files, fmt)
    ensures r.Ok? ==>
              forall name :: name in files && r.value[name] != files[name] ==>
                Entries(files, fmt) != {} && name == LexMax(Entries(files, fmt))
    ensures r.Err? ==> fmt == "json" && Entries(files, fmt) != {}
  {
    var names := Entries(files, fmt);
    if names == {} then Ok(files)
    else
      var latest := LexMax(names);
      if fmt == "md" then
        Ok(files[latest := AppendMd(files[latest], ts, context)])
      else if fmt == "json" then
        match AppendJson(files[latest], ts, context)
        case Err(e) => Err(e)
        case Ok(b) => Ok(files[latest := b])
      else Ok(files)
  }

  /** `_update_cot` without the context directory: updating is creating. */
  lemma UpdateWithoutDirCreates(fs: Fs, project: string, context: string, fmt: string, cwd: string,
                                contextDir: Option<string>, ts: string)
    requires ContextDir(cwd, contextDir) !in fs
    ensures Update(fs, project, context, fmt, cwd, contextDir, ts)
            == Ok(Create(fs, project, context, fmt, cwd, contextDir, ts))
  {
  }

  /** `_update_cot` with no entry of the format: updating changes nothing. */
  lemma UpdateWithoutEntries(fs: Fs, project: string, context: string, fmt: string, cwd: string,
                             contextDir: Option<string>, ts: string)
    requires ContextDir(cwd, contextDir) in fs && Entries(fs[ContextDir(cwd, contextDir)], fmt) == {}
    ensures Update(fs, project, context, fmt, cwd, contextDir, ts) == Ok(fs)
  {
    var dir := ContextDir(cwd, contextDir);
    assert fs[dir := fs[dir]] == fs;
  }

  /** `_update_cot` in a directory with Markdown entries: an update appends the
      update text to the entry with the greatest name and changes nothing else. */
  lemma UpdateAppendsMd(fs: Fs, project: string, context: string, cwd: string,
                        contextDir: Option<string>, ts: string)
    requires ContextDir(cwd, contextDir) in fs && Entries(fs[ContextDir(cwd, contextDir)], "md") != {}
    ensures var dir := ContextDir(cwd, contextDir);
            var latest := LexMax(Entries(fs[dir], "md"));
            var r := Update(fs, project, context, "md", cwd, contextDir, ts);
            && r.Ok? && latest in fs[dir]
            && r.value == fs[dir := fs[dir][latest := Plain(BodyText(fs[dir][latest]) + MdUpdate(ts, context))]]
  {
  }

  /** `_update_cot` in a directory with JSON entries: an update fails
      exactly when the entry with the greatest name cannot be extended, and
      otherwise replaces that entry, alone, with the extended document. */
  lemma UpdateAppendsJson(fs: Fs, project: string, context: string, cwd: string,
                          contextDir: Option<string>, ts: string)
    requires ContextDir(cwd, contextDir) in fs && Entries(fs[ContextDir(cwd, contextDir)], "json") != {}
    ensures var dir := ContextDir(cwd, contextDir);
            var latest := LexMax(Entries(fs[dir], "json"));
            var r := Update(fs, project, context, "json", cwd, contextDir, ts);
            && latest in fs[dir]
            && (r.Err? <==> AppendJson(fs[dir][latest], ts, context).Err?)
            && (r.Err? ==> r.error == AppendJson(fs[dir][latest], ts, context).error)
            && (r.Ok? ==> r.value == fs[dir := fs[dir][latest := AppendJson(fs[dir][latest], ts, context).value]])
  {
    var dir := ContextDir(cwd, contextDir);
    var latest := LexMax(Entries(fs[dir], "json"));
    assert latest in fs[dir];
    match AppendJson(fs[dir][latest], ts, context)
    case Err(_) =>
    case Ok(b) =>
      assert Update(fs, project, context, "json", cwd, contextDir, ts) == Ok(fs[dir := fs[dir][latest := b]]);
  }

  /** In a gapless journal of at most 9999 entries, the greatest name is the
      highest-numbered entry. */
  lemma LatestIsHighest(k: nat, fmt: string)
    requires 1 <= k <= 9999
    ensures LexMax(Numbered(k, fmt)) == EntryName(k, fmt)
  {
    NumberedMembers(k, fmt);
    forall y | y in Numbered(k, fmt)
      ensures !LexLess(EntryName(k, fmt), y)
    {
      var j :| 1 <= j <= k && y == EntryName(j, fmt);
      EntryOrder(k, j, fmt);
    }
    assert IsLexMax(EntryName(k, fmt), Numbered(k, fmt));
    LexMaxUnique(LexMax(Numbered(k, fmt)), EntryName(k, fmt), Numbered(k, fmt));
  }

  /** Past 9999 the string maximum is no longer the newest entry: `cot_10000.md`
      sorts before `cot_9999.md`, so updates keep going to entry 9999. */
  lemma LatestPastTenThousand()
    ensures LexMax(Numbered(10000, "md")) != EntryName(10000, "md")
  {
    var lo := EntryName(9999, "md");
    TenThousandSortsFirst();
    assert lo in Numbered(9999, "md");
    assert lo in Numbered(10000, "md");
  }

  /** `cot_10000.md < cot_9999.md` as strings. */
  lemma TenThousandSortsFirst()
    ensures LexLess(EntryName(10000, "md"), EntryName(9999, "md"))
  {
    BoundaryDigits();
    LexLessCommonPrefix(EntryPrefix, "10000" + ".md", "9999" + ".md");
    assert LexLess("10000" + ".md", "9999" + ".md");
  }

  lemma BoundaryDigits()
    ensures Pad4(9999) == "9999" && Pad4(10000) == "10000"
  {
    assert NatToString(9) == "9";
    assert NatToString(99) == "99";
    assert NatToString(999) == "999";
    assert NatToString(9999) == "9999";
    assert NatToString(1) == "1";
    assert NatToString(10) == "10";
    assert NatToString(100) == "100";
    assert NatToString(1000) == "1000";
    assert NatToString(10000) == "10000";
  }

  /** A Markdown update of a gapless journal appends to the newest entry; its
      old text stays as a prefix and no other file changes. */
  lemma UpdateAppendsToNewest(fs: Fs, project: string, context: string, cwd: string,
                              contextDir: Option<string>, ts: string, k: nat)
    requires ContextDir(cwd, contextDir) in fs
    requires 1 <= k <= 9999 && Entries(fs[ContextDir(cwd, contextDir)], "md") == Numbered(k, "md")
    ensures var dir := ContextDir(cwd, contextDir);
            var r := Update(fs, project, context, "md", cwd, contextDir, ts);
            && r.Ok?
            && EntryName(k, "md") in fs[dir]
            && r.value[dir][EntryName(k, "md")]
               == Plain(BodyText(fs[dir][EntryName(k, "md")]) + MdUpdate(ts, context))
            && (forall name :: name in fs[dir] && name != EntryName(k, "md") ==> r.value[dir][name] == fs[dir][name])
  {
    LatestIsHighest(k, "md");
    NumberedMembers(k, "md");
    var dir := ContextDir(cwd, contextDir);
    assert EntryName(k, "md") in Entries(fs[dir], "md");
    UpdateAppendsMd(fs, project, context, cwd, contextDir, ts);
  }

  /** The test_update_cot scenario: in an empty context directory, creating an
      entry and then updating it leaves one entry holding both texts. */
  lemma CreateThenUpdate(fs: Fs, project: string, first: string, second: string, dir: string,
                         cwd: string, ts1: string, ts2: string)
    requires dir in fs && fs[dir] == map[]
    ensures var created := Create(fs, project, first, "md", cwd, Some(dir), ts1);
            var updated := Update(created, project, second, "md", cwd, Some(dir), ts2);
            && updated.Ok?
            && Entries(updated.value[dir], "md") == {EntryName(1, "md")}
            && updated.value[dir][EntryName(1, "md")]
               == Plain(MdEntry(1, ts1, project, first) + MdUpdate(ts2, second))
  {
    var files: Dir := map[];
    assert Entries(files, "md") == {};
    assert Numbered(1, "md") == {EntryName(1, "md")};
    var created := Create(fs, project, first, "md", cwd, Some(dir), ts1);
    assert Entries(created[dir], "md") == {EntryName(1, "md")};
    LatestIsHighest(1, "md");
  }

  /** A JSON update of a gapless journal appends one record to the newest entry's
      `updates` list and keeps the entry's other fields. */
  lemma JsonUpdateAppendsRecord(fs: Fs, project: string, context: string, cwd: string,
                                contextDir: Option<string>, ts: string, k: nat)
    requires ContextDir(cwd, contextDir) in fs
    requires 1 <= k <= 9999 && Entries(fs[ContextDir(cwd, contextDir)], "json") == Numbered(k, "json")
    requires EntryName(k, "json") in fs[ContextDir(cwd, contextDir)]
    requires var b := fs[ContextDir(cwd, contextDir)][EntryName(k, "json")];
             b.Structured? && b.doc.JObj? && !HasKey(b.doc.fields, "updates")
    ensures var dir := ContextDir(cwd, contextDir);
            var r := Update(fs, project, context, "json", cwd, contextDir, ts);
            var b := fs[dir][EntryName(k, "json")];
            && r.Ok?
            && r.value[dir][EntryName(k, "json")].Structured?
            && Lookup(r.value[dir][EntryName(k, "json")].doc.fields, "updates") == Some(JArr([UpdateRecord(ts, context)]))
            && (forall key :: key != "updates" ==>
                  Lookup(r.value[dir][EntryName(k, "json")].doc.fields, key) == Lookup(b.doc.fields, key))
  {
    LatestIsHighest(k, "json");
  }
}

=== FILE: json.dfy ===
/**
 The JSON documents the journal stores for the `json` entry format: values as
 Python's `json` module loads them, dictionary lookup and assignment, and the
 text `json.dump(..., indent=2)` writes.
 */
module Json {
  import opened Wrappers
  import opened Strings
  import opened Decimal

  /** A JSON value. Objects keep their keys in insertion order, as Python
      dictionaries do. Floating-point numbers are not modelled. */
  datatype JsonValue =
    | JNull
    | JBool(b: bool)
    | JInt(i: int)
    | JStr(s: string)
    | JArr(items: seq<JsonValue>)
    | JObj(fields: seq<(string, JsonValue)>)

  predicate HasKey(fields: seq<(string, JsonValue)>, key: string) {
    exists k :: 0 <= k < |fields| && fields[k].0 == key
  }

  /** A key that is not the first one is a key of the rest. */
  lemma HasKeyTail(fields: seq<(string, JsonValue)>, key: string)
    requires |fields| > 0 && fields[0].0 != key
    ensures HasKey(fields, key) <==> HasKey(fields[1..], key)
  {
    if HasKey(fields, key) {
      var k :| 0 <= k < |fields| && fields[k].0 == key;
      assert fields[1..][k - 1].0 == key;
    }
    if HasKey(fields[1..], key) {
      var k :| 0 <= k < |fields[1..]| && fields[1..][k].0 == key;
      assert fields[k + 1].0 == key;
    }
  }

  /** Python's `d.get(key)` on a dictionary with the given items. */
  function Lookup(fields: seq<(string, JsonValue)>, key: string): (r: Option<JsonValue>)
    ensures r.None? <==> !HasKey(fields, key)
    ensures r.Some? ==> exists k :: 0 <= k < |fields| && fields[k] == (key, r.value)
  {
    if |fields| == 0 then None
    else if fields[0].0 == key then Some(fields[0].1)
    else
      var r := Lookup(fields[1..], key);
      HasKeyTail(fields, key);
      assert r.Some? ==> exists k :: 0 <= k < |fields| && fields[k] == (key, r.value) by {
        if r.Some? {
          var k :| 0 <= k < |fields[1..]| && fields[1..][k] == (key, r.value);
          assert fields[k + 1] == (key, r.value);
        }
      }
      r
  }

  /** Looking up in a dictionary given by its first item and the rest. */
  lemma LookupCons(head: (string, JsonValue), tail: seq<(string, JsonValue)>, key: string)
    ensures Lookup([head] + tail, key) == if head.0 == key then Some(head.1) else Lookup(tail, key)
  {
    assert ([head] + tail)[1..] == tail;
  }

  /** The first item under `key` is the one `d.get(key)` finds. */
  lemma {:induction false} LookupAt(fields: seq<(string, JsonValue)>, i: nat, key: string)
    requires i < |fields| && fields[i].0 == key
    requires forall j :: 0 <= j < i ==> fields[j].0 != key
    ensures Lookup(fields, key) == Some(fields[i].1)
    decreases i
  {
    if i > 0 {
      LookupAt(fields[1..], i - 1, key);
    }
  }

  /** Python's `d[key] = v`: an existing key keeps its position and takes the new
      value, a new key goes last. */
  function Store(fields: seq<(string, JsonValue)>, key: string, v: JsonValue): (r: seq<(string, JsonValue)>)
    ensures Lookup(r, key) == Some(v)
    ensures forall other :: other != key ==> Lookup(r, other) == Lookup(fields, other)
    ensures |r| == |fields| + (if HasKey(fields, key) then 0 else 1)
    ensures forall k :: 0 <= k < |fields| ==> r[k].0 == fields[k].0
  {
    if |fields| == 0 then [(key, v)]
    else if fields[0].0 == key then
      assert HasKey(fields, key);
      var r := [(key, v)] + fields[1..];
      assert fields == [fields[0]] + fields[1..];
      LookupCons((key, v), fields[1..], key);
      forall other | other != key
        ensures Lookup(r, other) == Lookup(fields, other)
      {
        LookupCons((key, v), fields[1..], other);
        LookupCons(fields[0], fields[1..], other);
      }
      r
    else
      var tail := Store(fields[1..], key, v);
      var r := [fields[0]] + tail;
      assert fields == [fields[0]] + fields[1..];
      HasKeyTail(fields, key);
      LookupCons(fields[0], tail, key);
      forall other | other != key
        ensures Lookup(r, other) == Lookup(fields, other)
      {
        LookupCons(fields[0], tail, other);
        LookupCons(fields[0], fields[1..], other);
      }
      r
  }

  function HexDigit(d: nat): char
    requires d < 16
  {
    if d < 10 then DigitChar(d) else ('a' as int + (d - 10)) as char
  }

  /** `\uXXXX` with four lower-case hexadecimal digits. */
  function UnicodeEscape(u: nat): string
    requires u < 0x1_0000
  {
    "\\u" + [HexDigit(u / 0x1000), HexDigit(u / 0x100 % 16), HexDigit(u / 16 % 16), HexDigit(u % 16)]
  }

  /** One character as `json.dumps` writes it with `ensure_ascii`: the short escapes,
      printable ASCII as itself, everything else as `\uXXXX`, split into a
      surrogate pair above U+FFFF. */
  function EscapeChar(c: char): string
  {
    var n := c as int;
    if c == '\\' then "\\\\"
    else if c == '"' then "\\\""
    else if c == '\n' then "\\n"
    else if c == '\r' then "\\r"
    else if c == '\t' then "\\t"
    else if n == 8 then "\\b"
    else if n == 12 then "\\f"
    else if 32 <= n <= 126 then [c]
    else if n < 0x1_0000 then UnicodeEscape(n)
    else
      var v := n - 0x1_0000;
      UnicodeEscape(0xD800 + v / 0x400) + UnicodeEscape(0xDC00 + v % 0x400)
  }

  function EscapeString(s: string): string
  {
    if |s| == 0 then "" else EscapeChar(s[0]) + EscapeString(s[1..])
  }

  function Quote(s: string): string {
    "\"" + EscapeString(s) + "\""
  }

  function Indent(depth: nat): string {
    if depth == 0 then "" else "  " + Indent(depth - 1)
  }

  /** The items of an array or object laid out one per line, as `indent=2` does. */
  function Block(open: string, parts: seq<string>, close: string, depth: nat): string
  {
    if |parts| == 0 then open + close
    else open + "\n" + Indent(depth + 1) + JoinWith(parts, ",\n" + Indent(depth + 1))
         + "\n" + Indent(depth) + close
  }

  /** The text `json.dump(v, f, indent=2)` writes for `v` nested `depth` levels deep. */
  function Encode(v: JsonValue, depth: nat): string
    decreases v
  {
    match v
    case JNull => "null"
    case JBool(b) => if b then "true" else "false"
    case JInt(i) => IntToString(i)
    case JStr(s) => Quote(s)
    case JArr(items) =>
      Block("[", seq(|items|, k requires 0 <= k < |items| => Encode(items[k], depth + 1)), "]", depth)
    case JObj(fields) =>
      Block("{", seq(|fields|, k requires 0 <= k < |fields| =>
                       Quote(fields[k].0) + ": " + Encode(fields[k].1, depth + 1)), "}", depth)
  }
}

=== FILE: markers.dfy ===
/**
 Extraction of marker-delimited sections from the summariser's reply. locohost
 writes `reply.split(OPEN)[1].split(CLOSE)[0].strip()` for each section; a missing
 opening marker makes the `[1]` subscript raise IndexError, while a missing closing
 marker raises nothing and the section simply runs on.
 */
module Markers {
  import opened Wrappers
  import opened Strings

  const CompressedOpen := "[COMPRESSED_CONTENT]"
  const CompressedClose := "[/COMPRESSED_CONTENT]"
  const CommitOpen := "[COMMIT_MESSAGE]"
  const CommitClose := "[/COMMIT_MESSAGE]"
  const FileTextOpen := "[FILE_TEXT]"
  const FileTextClose := "[/FILE_TEXT]"
  const ChangelogOpen := "[CHANGELOG]"
  const ChangelogClose := "[/CHANGELOG]"

  /** The IndexError raised when the opening marker named here is absent. */
  datatype MarkerError = MarkerMissing(marker: string)

  /** `reply.split(open)[1].split(close)[0].strip()`. It raises exactly when the
      opening marker is absent; a missing closing marker is no failure. */
  function Section(reply: string, open: string, close: string): (r: Result<string, MarkerError>)
    requires |open| > 0 && |close| > 0
    ensures r.Err? <==> !Contains(reply, open)
    ensures r.Err? ==> r.error == MarkerMissing(open)
  {
    var pieces := Split(reply, open);
    SplitShape(reply, open);
    if |pieces| < 2 then Err(MarkerMissing(open))
    else Ok(Strip(Split(pieces[1], close)[0]))
  }

  /** Where the section ends inside `rest`, the text after the first opening
      marker: at the next opening marker or the first closing marker, whichever
      comes first, or at the end. */
  function CutPoint(rest: string, open: string, close: string): (e: nat)
    ensures e <= |rest|
  {
    var j := FindFirst(rest, open);
    var k := FindFirst(rest, close);
    if j.Some? && (k.None? || j.value <= k.value) then j.value
    else if k.Some? then k.value
    else |rest|
  }

  /** The section located by index rather than by splitting. */
  function SectionByIndex(reply: string, open: string, close: string): Result<string, MarkerError>
  {
    match FindFirst(reply, open)
    case None => Err(MarkerMissing(open))
    case Some(i) =>
      var rest := reply[i + |open|..];
      Ok(Strip(rest[..CutPoint(rest, open, close)]))
  }

  /** The opening marker's first character appears in the closing marker only at
      its start, so a closing marker can never straddle an opening one. */
  predicate NoStraddle(open: string, close: string) {
    |open| > 0 && |close| > 0 && forall k :: 0 < k < |close| ==> close[k] != open[0]
  }

  /** The first occurrence of `p` in a prefix that ends where `q` begins, when no
      occurrence of `p` can straddle that position. */
  lemma FirstInPrefix(rest: string, j: nat, p: string, q: string)
    requires NoStraddle(q, p) && OccursAt(rest, q, j)
    ensures FindFirst(rest[..j], p) ==
              (match FindFirst(rest, p)
               case Some(k) => if k < j then Some(k) else None
               case None => None)
  {
    var seg := rest[..j];
    var k := FindFirst(rest, p);
    if k.Some? && k.value < j {
      OccursAtChar(rest, q, j, 0);
      // the character at `j` starts `q`, so it cannot lie inside the occurrence at `k`
      OccursAtChar(rest, p, k.value, j - k.value);
      assert k.value + |p| <= j;
      assert seg[k.value..k.value + |p|] == rest[k.value..k.value + |p|];
      assert OccursAt(seg, p, k.value);
      forall i: nat | i < k.value
        ensures !OccursAt(seg, p, i)
      {
        SliceOccurrence(rest, 0, j, p, i);
      }
    } else {
      forall i: nat | i <= |seg|
        ensures !OccursAt(seg, p, i)
      {
        SliceOccurrence(rest, 0, j, p, i);
      }
    }
  }

  /** With no further opening marker, the section runs to the first closing one. */
  lemma CutWithoutOpen(rest: string, open: string, close: string)
    requires |close| > 0 && FindFirst(rest, open).None?
    ensures Split(rest, close)[0] == rest[..CutPoint(rest, open, close)]
  {
    SplitShape(rest, close);
    assert rest[..|rest|] == rest;
  }

  /** With a further opening marker at `j`, the section is cut there unless a
      closing marker comes first. */
  lemma CutBeforeOpen(rest: string, j: nat, open: string, close: string)
    requires NoStraddle(open, close) && FindFirst(rest, open) == Some(j)
    ensures Split(rest[..j], close)[0] == rest[..CutPoint(rest, open, close)]
  {
    var seg := rest[..j];
    SplitShape(seg, close);
    FirstInPrefix(rest, j, close, open);
    match FindFirst(rest, close)
    case None =>
      assert seg[..|seg|] == seg;
    case Some(k) =>
      if k < j {
        assert seg[..k] == rest[..k];
      } else {
        assert seg[..|seg|] == seg;
      }
  }

  /** Within the text after the first opening marker, splitting at the next
      opening marker and then at the closing marker keeps the text up to the cut point. */
  lemma CutOfSegment(rest: string, open: string, close: string)
    requires NoStraddle(open, close)
    ensures Split(Split(rest, open)[0], close)[0] == rest[..CutPoint(rest, open, close)]
  {
    SplitShape(rest, open);
    match FindFirst(rest, open)
    case None =>
      CutWithoutOpen(rest, open, close);
    case Some(j) =>
      CutBeforeOpen(rest, j, open, close);
  }

  /** locohost's split-based extraction ends the section at the earlier of
      the next opening marker and the first closing marker. */
  lemma SectionAgreesWithCut(reply: string, open: string, close: string)
    requires NoStraddle(open, close)
    ensures Section(reply, open, close) == SectionByIndex(reply, open, close)
  {
    SplitShape(reply, open);
    var f := FindFirst(reply, open);
    if f.Some? {
      var rest := reply[f.value + |open|..];
      assert Split(reply, open)[1] == Split(rest, open)[0];
      CutOfSegment(rest, open, close);
    }
  }

  /** The text before the first occurrence of `close` keeps whatever `seg` avoids. */
  lemma FirstPieceAvoids(seg: string, close: string, p: string)
    requires |close| > 0 && !Contains(seg, p)
    ensures !Contains(Split(seg, close)[0], p)
  {
    SplitShape(seg, close);
    match FindFirst(seg, close)
    case None =>
    case Some(k) =>
      assert seg[..k] == seg[0..k];
      SliceAvoids(seg, 0, k, p);
  }

  /** An extracted section has no surrounding whitespace and contains neither marker. */
  lemma SectionAvoidsMarkers(reply: string, open: string, close: string)
    requires |open| > 0 && |close| > 0
    requires Section(reply, open, close).Ok?
    ensures var t := Section(reply, open, close).value;
            Stripped(t) && !Contains(t, open) && !Contains(t, close)
  {
    var pieces := Split(reply, open);
    SplitPiecesAvoidSeparator(reply, open);
    var seg := pieces[1];
    assert !Contains(seg, open);
    var cutPieces := Split(seg, close);
    SplitPiecesAvoidSeparator(seg, close);
    var cut := cutPieces[0];
    assert !Contains(cut, close);
    FirstPieceAvoids(seg, close, open);
    StripAvoids(cut, open);
    StripAvoids(cut, close);
  }

  /** The compressed snapshot text and the commit message of a compaction reply. */
  datatype Compression = Compression(content: string, message: string)

  /** `_compress_cot`'s extraction: the compressed content first, then the commit message; the
      first missing opening marker raises. */
  function ParseCompression(reply: string): (r: Result<Compression, MarkerError>)
    ensures r.Err? <==> !Contains(reply, CompressedOpen) || !Contains(reply, CommitOpen)
    ensures !Contains(reply, CompressedOpen) ==> r == Err(MarkerMissing(CompressedOpen))
    ensures Contains(reply, CompressedOpen) && !Contains(reply, CommitOpen) ==> r == Err(MarkerMissing(CommitOpen))
  {
    match Section(reply, CompressedOpen, CompressedClose)
    case Err(e) => Err(e)
    case Ok(content) =>
      match Section(reply, CommitOpen, CommitClose)
      case Err(e) => Err(e)
      case Ok(message) => Ok(Compression(content, message))
  }

  /** The reply layout the compaction prompt asks for, over any four markers. */
  function Layout(co: string, cc: string, mo: string, mc: string, content: string, message: string): string {
    co + "\n" + content + "\n" + cc + "\n\n" + mo + "\n" + message + "\n" + mc
  }

  /** The reply layout the compaction prompt asks the summariser for. */
  function CompressionReply(content: string, message: string): string {
    Layout(CompressedOpen, CompressedClose, CommitOpen, CommitClose, content, message)
  }

  /** Text that survives a trip through the reply layout: no marker inside it and
      no whitespace at either end for `strip()` to remove. */
  predicate Clean(s: string) {
    && Stripped(s)
    && !Contains(s, CompressedOpen) && !Contains(s, CompressedClose)
    && !Contains(s, CommitOpen) && !Contains(s, CommitClose)
  }

  /** A pattern without a line break cannot straddle one. */
  lemma AbsentAcrossNewline(a: string, b: string, p: string)
    requires |p| > 0 && '\n' !in p
    requires !Contains(a, p) && !Contains(b, p)
    ensures !Contains(a + "\n" + b, p)
  {
    var s := a + "\n" + b;
    forall i: nat | i <= |s|
      ensures !OccursAt(s, p, i)
    {
      if i + |p| > |s| {
      } else if i + |p| <= |a| {
        WindowInside(s, 0, |a|, p, i);
        assert s[0..|a|] == a;
      } else if i > |a| {
        WindowInside(s, |a| + 1, |s|, p, i);
        assert s[|a| + 1..|s|] == b;
      } else {
        OccursAtChar(s, p, i, |a| - i);
        assert s[|a|] == '\n';
        assert p[|a| - i] in p;
      }
    }
  }

  /** A pattern without a line break that is absent from `a` is first found right
      after the line break that follows `a`. */
  lemma FirstAfterNewline(a: string, p: string, b: string)
    requires |p| > 0 && '\n' !in p && !Contains(a, p)
    ensures FindFirst(a + "\n" + p + b, p) == Some(|a| + 1)
  {
    var s := a + "\n" + p + b;
    assert s[|a| + 1..|a| + 1 + |p|] == p;
    assert OccursAt(s, p, |a| + 1);
    forall i: nat | i < |a| + 1
      ensures !OccursAt(s, p, i)
    {
      if i + |p| <= |a| {
        WindowInside(s, 0, |a|, p, i);
        assert s[0..|a|] == a;
      } else {
        OccursAtChar(s, p, i, |a| - i);
        assert s[|a|] == '\n';
        assert p[|a| - i] in p;
      }
    }
  }

  /** Every marker is a bracketed word on one line: `[` opens it and occurs
      nowhere else in it. */
  predicate MarkerShape(m: string) {
    |m| >= 2 && m[0] == '[' && forall k :: 0 < k < |m| ==> m[k] != '[' && m[k] != '\n'
  }

  lemma ShapeHasNoNewline(m: string)
    requires MarkerShape(m)
    ensures '\n' !in m
  {
    forall k | 0 <= k < |m|
      ensures m[k] != '\n'
    {
    }
  }

  lemma ShapeNoStraddle(open: string, close: string)
    requires MarkerShape(open) && MarkerShape(close)
    ensures NoStraddle(open, close)
  {
  }

  /** One marker never occurs inside another that differs from it at position `t`. */
  lemma MarkerNotInMarker(s: string, p: string, t: nat)
    requires MarkerShape(s) && MarkerShape(p)
    requires t < |s| && t < |p| && s[t] != p[t]
    ensures !Contains(s, p)
  {
    OccursAtChar(s, p, 0, t);
    forall k | 0 <= k < |s| - 1
      ensures s[1..][k] != p[0]
    {
      assert s[1..][k] == s[k + 1];
    }
    OnlyAtStart(s, p);
  }

  /** A pattern whose first character appears in `s` only at index 0 occurs in `s`
      at most there. */
  lemma OnlyAtStart(s: string, p: string)
    requires |p| > 0 && |s| > 0 && p[0] !in s[1..]
    requires !OccursAt(s, p, 0)
    ensures !Contains(s, p)
  {
    forall i: nat | 0 < i <= |s|
      ensures !OccursAt(s, p, i)
    {
      OccursAtChar(s, p, i, 0);
      if i < |s| {
        assert s[i] == s[1..][i - 1];
      }
    }
  }

  /** Four markers that never occur inside one another where the layout needs it. */
  predicate Distinct(co: string, cc: string, mo: string, mc: string) {
    && MarkerShape(co) && MarkerShape(cc) && MarkerShape(mo) && MarkerShape(mc)
    && !Contains(cc, co) && !Contains(mo, co) && !Contains(mc, co)
    && !Contains(co, mo) && !Contains(cc, mo) && !Contains(mc, mo)
  }

  lemma CompressedOpenShape() ensures MarkerShape(CompressedOpen) { }
  lemma CompressedCloseShape() ensures MarkerShape(CompressedClose) { }
  lemma CommitOpenShape() ensures MarkerShape(CommitOpen) { }
  lemma CommitCloseShape() ensures MarkerShape(CommitClose) { }

  /** The compaction markers differ: the closing ones at their second character,
      the two opening ones at their fifth. */
  lemma CompactionMarkersDistinct()
    ensures Distinct(CompressedOpen, CompressedClose, CommitOpen, CommitClose)
  {
    CompressedOpenShape();
    CompressedCloseShape();
    CommitOpenShape();
    CommitCloseShape();
    MarkerNotInMarker(CompressedClose, CompressedOpen, 1);
    MarkerNotInMarker(CommitOpen, CompressedOpen, 4);
    MarkerNotInMarker(CommitClose, CompressedOpen, 1);
    MarkerNotInMarker(CompressedOpen, CommitOpen, 4);
    MarkerNotInMarker(CompressedClose, CommitOpen, 1);
    MarkerNotInMarker(CommitClose, CommitOpen, 1);
  }

  /** A section framed by line breaks between its two markers comes back as the
      text inside, once the opening marker is known to be found first at `|pre|`
      and not again afterwards. */
  lemma SectionOfFramed(reply: string, pre: string, open: string, c: string, close: string, post: string)
    requires NoStraddle(open, close) && '\n' !in close
    requires reply == pre + open + ("\n" + c + "\n" + close + post)
    requires FindFirst(reply, open) == Some(|pre|)
    requires !Contains("\n" + c + "\n" + close + post, open)
    requires !Contains(c, close) && Stripped(c)
    ensures Section(reply, open, close) == Ok(c)
  {
    SectionAgreesWithCut(reply, open, close);
    var rest := "\n" + c + "\n" + close + post;
    assert reply[|pre| + |open|..] == rest;
    FramedCut(c, open, close, post);
    FramedStrip(c);
  }

  /** After the opening marker, the section ends at the closing marker that follows
      the content's line. */
  lemma FramedCut(c: string, open: string, close: string, post: string)
    requires NoStraddle(open, close) && '\n' !in close
    requires !Contains("\n" + c + "\n" + close + post, open)
    requires !Contains(c, close)
    ensures var rest := "\n" + c + "\n" + close + post;
            CutPoint(rest, open, close) == |c| + 2 && rest[..|c| + 2] == "\n" + c + "\n"
  {
    var rest := "\n" + c + "\n" + close + post;
    AbsentAcrossNewline("", c, close);
    FirstAfterNewline("" + "\n" + c, close, post);
    assert rest == "" + "\n" + c + "\n" + close + post;
  }

  lemma FramedStrip(c: string)
    requires Stripped(c)
    ensures Strip("\n" + c + "\n") == c
  {
    assert forall k :: 0 <= k < |"\n"| ==> IsSpace("\n"[k]);
    StripFramed("\n", c, "\n");
  }

  /** The first opening marker does not come back after the first line of the layout. */
  lemma FirstOpenOnlyFirst(co: string, cc: string, mo: string, mc: string, content: string, message: string)
    requires Distinct(co, cc, mo, mc)
    requires !Contains(content, co) && !Contains(message, co)
    ensures !Contains("\n" + content + "\n" + cc + ("\n\n" + mo + "\n" + message + "\n" + mc), co)
  {
    ShapeHasNoNewline(co);
    var s1 := "" + "\n" + content;
    AbsentAcrossNewline("", content, co);
    AbsentAcrossNewline(s1, cc, co);
    var s2 := s1 + "\n" + cc;
    AbsentAcrossNewline(s2, "", co);
    var s3 := s2 + "\n" + "";
    AbsentAcrossNewline(s3, mo, co);
    var s4 := s3 + "\n" + mo;
    AbsentAcrossNewline(s4, message, co);
    var s5 := s4 + "\n" + message;
    AbsentAcrossNewline(s5, mc, co);
    assert s5 + "\n" + mc == "\n" + content + "\n" + cc + ("\n\n" + mo + "\n" + message + "\n" + mc);
  }

  /** The first section of the layout is the content. */
  lemma FirstSectionOfLayout(co: string, cc: string, mo: string, mc: string, content: string, message: string)
    requires Distinct(co, cc, mo, mc)
    requires Stripped(content) && !Contains(content, co) && !Contains(content, cc)
    requires !Contains(message, co)
    ensures Section(Layout(co, cc, mo, mc, content, message), co, cc) == Ok(content)
  {
    ShapeNoStraddle(co, cc);
    ShapeHasNoNewline(cc);
    FirstOpenOnlyFirst(co, cc, mo, mc, content, message);
    var reply := Layout(co, cc, mo, mc, content, message);
    var post := "\n\n" + mo + "\n" + message + "\n" + mc;
    assert reply == "" + co + ("\n" + content + "\n" + cc + post);
    assert OccursAt(reply, co, 0) by {
      assert reply[..|co|] == co;
    }
    SectionOfFramed(reply, "", co, content, cc, post);
  }

  /** The second opening marker is absent from everything before its own line. */
  lemma SecondOpenAbsentBefore(co: string, cc: string, mo: string, content: string)
    requires MarkerShape(mo) && !Contains(co, mo) && !Contains(cc, mo) && !Contains(content, mo)
    ensures !Contains(co + "\n" + content + "\n" + cc + "\n" + "", mo)
  {
    ShapeHasNoNewline(mo);
    AbsentAcrossNewline(co, content, mo);
    AbsentAcrossNewline(co + "\n" + content, cc, mo);
    AbsentAcrossNewline(co + "\n" + content + "\n" + cc, "", mo);
  }

  /** The layout cut just before the line of the second opening marker. */
  lemma LayoutAtSecond(co: string, cc: string, mo: string, mc: string, content: string, message: string)
    ensures Layout(co, cc, mo, mc, content, message)
            == (co + "\n" + content + "\n" + cc + "\n" + "") + "\n" + mo + ("\n" + message + "\n" + mc)
  {
    assert "\n\n" == "\n" + "" + "\n";
  }

  /** The second opening marker is first found on its own line of the layout. */
  lemma SecondOpenFound(co: string, cc: string, mo: string, mc: string, content: string, message: string)
    requires MarkerShape(mo) && !Contains(co, mo) && !Contains(cc, mo) && !Contains(content, mo)
    ensures var a := co + "\n" + content + "\n" + cc + "\n" + "";
            FindFirst(Layout(co, cc, mo, mc, content, message), mo) == Some(|a| + 1)
  {
    ShapeHasNoNewline(mo);
    SecondOpenAbsentBefore(co, cc, mo, content);
    LayoutAtSecond(co, cc, mo, mc, content, message);
    FirstAfterNewline(co + "\n" + content + "\n" + cc + "\n" + "", mo, "\n" + message + "\n" + mc);
  }

  /** The second opening marker does not come back after its own line. */
  lemma SecondOpenOnlyOnce(mo: string, mc: string, message: string)
    requires MarkerShape(mo) && !Contains(mc, mo) && !Contains(message, mo)
    ensures !Contains("\n" + message + "\n" + mc + "", mo)
  {
    ShapeHasNoNewline(mo);
    AbsentAcrossNewline("", message, mo);
    AbsentAcrossNewline("" + "\n" + message, mc, mo);
    assert "\n" + message + "\n" + mc + "" == "" + "\n" + message + "\n" + mc;
  }

  /** The second section of the layout is the message. */
  lemma SecondSectionOfLayout(co: string, cc: string, mo: string, mc: string, content: string, message: string)
    requires Distinct(co, cc, mo, mc)
    requires !Contains(content, mo)
    requires Stripped(message) && !Contains(message, mo) && !Contains(message, mc)
    ensures Section(Layout(co, cc, mo, mc, content, message), mo, mc) == Ok(message)
  {
    ShapeNoStraddle(mo, mc);
    ShapeHasNoNewline(mc);
    SecondOpenFound(co, cc, mo, mc, content, message);
    LayoutAtSecond(co, cc, mo, mc, content, message);
    SecondOpenOnlyOnce(mo, mc, message);
    var reply := Layout(co, cc, mo, mc, content, message);
    var pre := co + "\n" + content + "\n" + cc + "\n" + "" + "\n";
    assert reply == pre + mo + ("\n" + message + "\n" + mc + "");
    SectionOfFramed(reply, pre, mo, message, mc, "");
  }

  /** Any compressed content and commit message free of markers and of outer
      whitespace come back unchanged from a reply laid out as the prompt asks. */
  lemma ParseCompressionRoundTrip(content: string, message: string)
    requires Clean(content) && Clean(message)
    ensures ParseCompression(CompressionReply(content, message)) == Ok(Compression(content, message))
  {
    CompactionMarkersDistinct();
    FirstSectionOfLayout(CompressedOpen, CompressedClose, CommitOpen, CommitClose, content, message);
    SecondSectionOfLayout(CompressedOpen, CompressedClose, CommitOpen, CommitClose, content, message);
  }

  /** The three sections `get_snapshot_data` returns. */
  datatype SnapshotData = SnapshotData(fileText: string, commitMessage: string, changelog: string)

  /** `get_snapshot_data`'s extraction: file text, commit message and changelog in that order. */
  function ParseSnapshotData(reply: string): (r: Result<SnapshotData, MarkerError>)
    ensures r.Ok? <==> Contains(reply, FileTextOpen) && Contains(reply, CommitOpen) && Contains(reply, ChangelogOpen)
    ensures !Contains(reply, FileTextOpen) ==> r == Err(MarkerMissing(FileTextOpen))
  {
    match Section(reply, FileTextOpen, FileTextClose)
    case Err(e) => Err(e)
    case Ok(text) =>
      match Section(reply, CommitOpen, CommitClose)
      case Err(e) => Err(e)
      case Ok(message) =>
        match Section(reply, ChangelogOpen, ChangelogClose)
        case Err(e) => Err(e)
        case Ok(log) => Ok(SnapshotData(text, message, log))
  }

  /** Every field `get_snapshot_data` returns is stripped and free of its own
      markers. */
  lemma SnapshotDataClean(reply: string)
    ensures ParseSnapshotData(reply).Ok? ==>
            var d := ParseSnapshotData(reply).value;
            && Stripped(d.fileText) && !Contains(d.fileText, FileTextOpen) && !Contains(d.fileText, FileTextClose)
            && Stripped(d.commitMessage) && !Contains(d.commitMessage, CommitOpen) && !Contains(d.commitMessage, CommitClose)
            && Stripped(d.changelog) && !Contains(d.changelog, ChangelogOpen) && !Contains(d.changelog, ChangelogClose)
  {
    if ParseSnapshotData(reply).Ok? {
      SectionAvoidsMarkers(reply, FileTextOpen, FileTextClose);
      SectionAvoidsMarkers(reply, CommitOpen, CommitClose);
      SectionAvoidsMarkers(reply, ChangelogOpen, ChangelogClose);
    }
  }
}

=== FILE: paths.dfy ===
/**
 POSIX path handling the engine uses: `os.path.join` of two components,
 `os.path.basename`, and the resolution of the context directory.
 */
module Paths {
  import opened Wrappers
  import opened Strings

  /** Python's `os.path.join(a, b)` on POSIX: an absolute `b` replaces `a`;
      otherwise one slash separates them unless `a` is empty or already ends in one. */
  function Join(a: string, b: string): string
  {
    if StartsWith(b, "/") then b
    else if a == "" || EndsWith(a, "/") then a + b
    else a + "/" + b
  }

  predicate NoSlash(s: string) {
    forall k :: 0 <= k < |s| ==> s[k] != '/'
  }

  /** Python's `os.path.basename(p)`: what follows the last slash. */
  function Basename(p: string): (r: string)
    ensures NoSlash(r)
    ensures EndsWith(p, r)
    ensures |r| < |p| ==> p[|p| - |r| - 1] == '/'
  {
    if |p| == 0 || p[|p| - 1] == '/' then "" else Basename(p[..|p| - 1]) + [p[|p| - 1]]
  }

  /** The basename of a slash-free name placed after a directory prefix is that name. */
  lemma {:induction false} BasenameAfterSlash(x: string, b: string)
    requires x == "" || x[|x| - 1] == '/'
    requires NoSlash(b)
    ensures Basename(x + b) == b
    decreases |b|
  {
    if |b| == 0 {
      assert x + b == x;
    } else {
      var init := b[..|b| - 1];
      assert (x + b)[..|x + b| - 1] == x + init;
      BasenameAfterSlash(x, init);
      assert b == init + [b[|b| - 1]];
    }
  }

  /** Joining a directory with a plain file name and taking the basename gives the name back. */
  lemma BasenameOfJoin(dir: string, name: string)
    requires |name| > 0 && NoSlash(name)
    ensures Basename(Join(dir, name)) == name
  {
    if dir == "" || EndsWith(dir, "/") {
      BasenameAfterSlash(dir, name);
    } else {
      assert dir + "/" + name == (dir + "/") + name;
      BasenameAfterSlash(dir + "/", name);
    }
  }

  /** Joining never loses the directory: a relative name lands under it. */
  lemma JoinExtends(dir: string, name: string)
    requires !StartsWith(name, "/")
    ensures StartsWith(Join(dir, name), dir)
  {
    if dir == "" || EndsWith(dir, "/") {
      assert (dir + name)[..|dir|] == dir;
    } else {
      assert (dir + "/" + name)[..|dir|] == dir;
    }
  }

  const ContextDirName := ".context"

  /** `_get_context_dir`: the directory the caller passed, or `.context` inside the
      working directory `cwd` (the value of `os.getcwd()`). The project name
      `_get_context_dir` also receives plays no part in the result. */
  function ContextDir(cwd: string, contextDir: Option<string>): (r: string)
    ensures contextDir.Some? ==> r == contextDir.value
    ensures contextDir.None? ==> StartsWith(r, cwd) && Basename(r) == ContextDirName
    ensures contextDir.None? ==>
              |r| == |cwd| + |ContextDirName| + (if cwd == "" || EndsWith(cwd, "/") then 0 else 1)
  {
    match contextDir
    case Some(d) => d
    case None =>
      assert ContextDirName[0] == '.';
      BasenameOfJoin(cwd, ContextDirName);
      JoinExtends(cwd, ContextDirName);
      Join(cwd, ContextDirName)
  }
}

=== FILE: session.dfy ===
/**
 The process-wide `Session`: one shared record of the current project, its
 directories and the list of its files.

 Walking the project tree is the parameter `walk`, which maps a directory to the
 paths `os.path.join(root, file)` of every file below it, in walk order.
 */
module ProjectSession {
  import opened Wrappers
  import opened Paths

  /** The instance's attributes. `assignedDir` is `_project_dir`, which reads as
      the class attribute `None` until `set_project_dir` assigns it. */
  datatype Session = Session(
    projectName: Option<string>,
    projectDir: Option<string>,
    contextDir: Option<string>,
    journalCache: map<string, string>,
    projectFiles: seq<string>,
    assignedDir: Option<string>)

  /** The TypeError `os.walk(None)` raises when no project directory is set. */
  datatype SessionError = WalkOfNone

  /** The session after a call, with what the call returned or raised. */
  datatype Done<T> = Done(session: Session, result: Result<T, SessionError>)

  /** The attributes `Session.__new__` gives the first instance. */
  const Fresh := Session(None, None, None, map[], [], None)

  /** `Session()` (its `__new__`) given the class's `_instance`: the first call makes
      the instance, every later call returns the one already made, untouched. */
  function Construct(instance: Option<Session>): (r: (Option<Session>, Session))
    ensures r.0 == Some(r.1)
    ensures instance.Some? ==> r.1 == instance.value
  {
    match instance
    case None => (Some(Fresh), Fresh)
    case Some(s) => (instance, s)
  }

  /** Every construction after the first hands back the same session. */
  lemma ConstructSingleton(instance: Option<Session>)
    ensures var first := Construct(instance);
            Construct(first.0) == first
  {
  }

  /** A fresh instance starts with no project and an empty cache and file list. */
  lemma ConstructFirst()
    ensures var s := Construct(None).1;
            s.projectName.None? && s.projectDir.None? && s.contextDir.None?
            && s.journalCache == map[] && s.projectFiles == [] && s.assignedDir.None?
  {
  }

  /** `_scan_project_files`: reset the file list, then walk `project_dir`. */
  function Scan(s: Session, walk: string -> seq<string>): (r: Done<()>)
    ensures r.session == s.(projectFiles := r.session.projectFiles)
    ensures r.result.Err? <==> s.projectDir.None?
    ensures s.projectDir.Some? ==> r.session.projectFiles == walk(s.projectDir.value)
    ensures s.projectDir.None? ==> r.session.projectFiles == []
  {
    match s.projectDir
    case None => Done(s.(projectFiles := []), Err(WalkOfNone))
    case Some(dir) => Done(s.(projectFiles := walk(dir)), Ok(()))
  }

  /** `set_project(name, dir)`. */
  function SetProject(s: Session, name: string, dir: string, walk: string -> seq<string>): (r: Done<()>)
    ensures r.result.Ok?
    ensures r.session.journalCache == s.journalCache && r.session.assignedDir == s.assignedDir
    ensures r.session.projectName == Some(name) && r.session.projectDir == Some(Join(dir, name))
  {
    var target := Join(dir, name);
    if s.projectName != Some(name) || s.projectDir != Some(target) then
      Scan(s.(projectName := Some(name), projectDir := Some(target),
              contextDir := Some(Join(target, ContextDirName))), walk)
    else Done(s, Ok(()))
  }

  /** After a change of project, the context directory is `.context` inside the
      new project directory, as `_get_context_dir` would resolve it there, and
      the file list is that directory's walk. */
  lemma SetProjectFields(s: Session, name: string, dir: string, walk: string -> seq<string>)
    requires s.projectName != Some(name) || s.projectDir != Some(Join(dir, name))
    ensures var r := SetProject(s, name, dir, walk).session;
            && r.contextDir == Some(ContextDir(Join(dir, name), None))
            && r.projectFiles == walk(Join(dir, name))
  {
  }

  /** `set_project`'s guard: setting the project it already has changes nothing and walks nothing. */
  lemma SetProjectUnchanged(s: Session, name: string, dir: string, walk: string -> seq<string>)
    requires s.projectName == Some(name) && s.projectDir == Some(Join(dir, name))
    ensures SetProject(s, name, dir, walk) == Done(s, Ok(()))
  {
  }

  /** Setting the same project twice is setting it once. */
  lemma SetProjectIdempotent(s: Session, name: string, dir: string, walk: string -> seq<string>)
    ensures var once := SetProject(s, name, dir, walk).session;
            SetProject(once, name, dir, walk) == Done(once, Ok(()))
  {
    SetProjectUnchanged(SetProject(s, name, dir, walk).session, name, dir, walk);
  }

  /** `set_project_dir(d)`. */
  function SetProjectDir(s: Session, d: Option<string>, walk: string -> seq<string>): (r: Done<()>)
    ensures r.session.assignedDir == d
    ensures r.session.projectDir == s.projectDir && r.session.projectName == s.projectName
    ensures r.session.contextDir == s.contextDir && r.session.journalCache == s.journalCache
    ensures s.assignedDir == d ==> r == Done(s, Ok(()))
  {
    if s.assignedDir != d then Scan(s.(assignedDir := d), walk) else Done(s, Ok(()))
  }

  /** `set_project_dir` then `_scan_project_files`: a new value for `_project_dir` rescans `project_dir`, not
      the value just set, and raises when `set_project` was never called. */
  lemma SetProjectDirRescansProjectDir(s: Session, d: Option<string>, walk: string -> seq<string>)
    requires s.assignedDir != d
    ensures var r := SetProjectDir(s, d, walk);
            && (s.projectDir.Some? ==> r.result.Ok? && r.session.projectFiles == walk(s.projectDir.value))
            && (s.projectDir.None? ==> r.result == Err(WalkOfNone) && r.session.projectFiles == [])
  {
  }

  /** `get_project_dir`, defined twice in the class: the second replaces the first, so
      it answers `_project_dir`, whatever `project_dir` holds. */
  function GetProjectDir(s: Session): Option<string> {
    s.assignedDir
  }

  function GetContextDir(s: Session): Option<string> {
    s.contextDir
  }

  function GetProjectName(s: Session): Option<string> {
    s.projectName
  }

  /** `get_project_dir` reports the last `set_project_dir` value, and
      `set_project` never moves it. */
  lemma ProjectDirShadowed(s: Session, name: string, dir: string, d: Option<string>, walk: string -> seq<string>)
    ensures GetProjectDir(SetProject(s, name, dir, walk).session) == GetProjectDir(s)
    ensures GetProjectDir(SetProjectDir(s, d, walk).session) == d
  {
  }

  /** `get_project_files()`: the cached list, or a fresh walk when
      the cache is empty. */
  function GetProjectFiles(s: Session, walk: string -> seq<string>): (r: Done<seq<string>>)
    ensures |s.projectFiles| > 0 ==> r == Done(s, Ok(s.projectFiles))
    ensures |s.projectFiles| == 0 && s.projectDir.Some? ==>
              r.result == Ok(walk(s.projectDir.value)) && r.session.projectFiles == walk(s.projectDir.value)
    ensures |s.projectFiles| == 0 && s.projectDir.None? ==> r.result == Err(WalkOfNone)
    ensures r.session.projectDir == s.projectDir && r.session.assignedDir == s.assignedDir
  {
    if |s.projectFiles| == 0 then
      var scanned := Scan(s, walk);
      match scanned.result
      case Err(e) => Done(scanned.session, Err(e))
      case Ok(_) => Done(scanned.session, Ok(scanned.session.projectFiles))
    else Done(s, Ok(s.projectFiles))
  }

  /** Asking for the files twice gives the same list, and the second time reads
      the cache unless the walk found nothing. */
  lemma GetProjectFilesStable(s: Session, walk: string -> seq<string>)
    requires s.projectDir.Some?
    ensures var first := GetProjectFiles(s, walk);
            var second := GetProjectFiles(first.session, walk);
            && first.result.Ok? && second.result == first.result
            && (|first.result.value| > 0 ==> second.session == first.session)
  {
  }
}

=== FILE: strings.dfy ===
/**
 Python string primitives the journal engine relies on, stated over `seq<char>`:
 prefix and suffix tests, substring search, `str.split` with a separator,
 `str.strip()` with no argument, and the code-point ordering `<` that
 Python's `max` applies to file names.
 */
module Strings {
  import opened Wrappers

  /** Python's `s.startswith(p)`. */
  predicate StartsWith(s: string, p: string) {
    |p| <= |s| && s[..|p|] == p
  }

  /** Python's `s.endswith(p)`. */
  predicate EndsWith(s: string, p: string) {
    |p| <= |s| && s[|s| - |p|..] == p
  }

  /** A three-part concatenation starts with its first part and ends with its last. */
  lemma Affixes(a: string, b: string, c: string)
    ensures StartsWith(a + (b + c), a) && EndsWith(a + (b + c), c)
  {
    var s := a + (b + c);
    assert s[..|a|] == a;
    assert s[|s| - |c|..] == c;
  }

  /** `p` occurs in `s` beginning at index `i`. */
  predicate OccursAt(s: string, p: string, i: nat) {
    i + |p| <= |s| && s[i..i + |p|] == p
  }

  /** Python's `p in s`. */
  predicate Contains(s: string, p: string) {
    exists i: nat :: i <= |s| && OccursAt(s, p, i)
  }

  /** A string contains its own prefix. */
  lemma ContainsPrefix(p: string, t: string)
    ensures Contains(p + t, p)
  {
    assert (p + t)[0..|p|] == p;
    assert OccursAt(p + t, p, 0);
  }

  /** What a string contains, it still contains with text put in front. */
  lemma ContainsAfter(h: string, t: string, p: string)
    requires Contains(t, p)
    ensures Contains(h + t, p)
  {
    var i: nat :| i <= |t| && OccursAt(t, p, i);
    assert (h + t)[|h| + i..|h| + i + |p|] == t[i..i + |p|];
    assert OccursAt(h + t, p, |h| + i);
  }

  /** The first index at or after `from` where `p` occurs in `s`. */
  function FindFrom(s: string, p: string, from: nat): (r: Option<nat>)
    ensures r.Some? ==> from <= r.value && OccursAt(s, p, r.value)
    ensures r.Some? ==> forall j: nat :: from <= j < r.value ==> !OccursAt(s, p, j)
    ensures r.None? ==> forall j: nat :: from <= j ==> !OccursAt(s, p, j)
    decreases |s| - from
  {
    if from + |p| > |s| then None
    else if s[from..from + |p|] == p then Some(from)
    else FindFrom(s, p, from + 1)
  }

  /** Python's `s.find(p)`, with `None` for -1. */
  function FindFirst(s: string, p: string): (r: Option<nat>)
    ensures r.None? <==> !Contains(s, p)
    ensures r.Some? ==> OccursAt(s, p, r.value)
    ensures r.Some? ==> forall j: nat :: j < r.value ==> !OccursAt(s, p, j)
  {
    FindFrom(s, p, 0)
  }

  /** An occurrence inside a slice of `s` is an occurrence in `s`. */
  lemma SliceOccurrence(s: string, lo: nat, hi: nat, p: string, j: nat)
    requires lo <= hi <= |s|
    ensures OccursAt(s[lo..hi], p, j) ==> OccursAt(s, p, lo + j)
  {
    if OccursAt(s[lo..hi], p, j) {
      forall k | 0 <= k < |p|
        ensures s[lo + j + k] == p[k]
      {
        assert s[lo..hi][j..j + |p|][k] == p[k];
      }
      assert s[lo + j..lo + j + |p|] == p;
    }
  }

  /** An occurrence lying wholly inside `s[lo..hi]` is an occurrence in that slice. */
  lemma WindowInside(s: string, lo: nat, hi: nat, p: string, i: nat)
    requires lo <= i && i + |p| <= hi <= |s|
    ensures OccursAt(s, p, i) ==> OccursAt(s[lo..hi], p, i - lo)
  {
    if OccursAt(s, p, i) {
      forall t | 0 <= t < |p|
        ensures s[lo..hi][i - lo..i - lo + |p|][t] == p[t]
      {
        assert s[i..i + |p|][t] == p[t];
      }
      assert s[lo..hi][i - lo..i - lo + |p|] == p;
    }
  }

  /** An occurrence fixes each character it covers. */
  lemma OccursAtChar(s: string, p: string, i: nat, t: nat)
    ensures OccursAt(s, p, i) && t < |p| ==> i + t < |s| && s[i + t] == p[t]
  {
    if OccursAt(s, p, i) && t < |p| {
      assert s[i..i + |p|][t] == s[i + t];
    }
  }

  /** A slice of a string that does not contain `p` does not contain it either. */
  lemma SliceAvoids(s: string, lo: nat, hi: nat, p: string)
    requires lo <= hi <= |s|
    requires !Contains(s, p)
    ensures !Contains(s[lo..hi], p)
  {
    forall j: nat | j <= hi - lo
      ensures !OccursAt(s[lo..hi], p, j)
    {
      SliceOccurrence(s, lo, hi, p, j);
    }
  }

  /** Python's `s.split(sep)` for a non-empty separator: the pieces between
      successive non-overlapping occurrences of `sep`, scanning left to right. */
  function Split(s: string, sep: string): (r: seq<string>)
    requires |sep| > 0
    ensures |r| >= 1
    decreases |s|
  {
    var found := FindFirst(s, sep);
    if found.None? then [s]
    else [s[..found.value]] + Split(s[found.value + |sep|..], sep)
  }

  /** One step of `Split`: its first two pieces in terms of the first occurrence. */
  lemma SplitShape(s: string, sep: string)
    requires |sep| > 0
    ensures |Split(s, sep)| >= 2 <==> Contains(s, sep)
    ensures FindFirst(s, sep).None? ==> Split(s, sep)[0] == s
    ensures FindFirst(s, sep).Some? ==>
              var i := FindFirst(s, sep).value;
              Split(s, sep)[0] == s[..i] && Split(s, sep)[1] == Split(s[i + |sep|..], sep)[0]
  {
  }

  /** The text before the first occurrence of `p` does not contain `p`. */
  lemma SliceAvoidsBefore(s: string, p: string, i: nat)
    requires i <= |s| && |p| > 0
    requires forall j: nat :: j < i ==> !OccursAt(s, p, j)
    ensures !Contains(s[..i], p)
  {
    assert s[..i] == s[0..i];
    forall j: nat | j <= i
      ensures !OccursAt(s[..i], p, j)
    {
      SliceOccurrence(s, 0, i, p, j);
    }
  }

  /** No piece produced by `Split` contains the separator. */
  lemma {:induction false} SplitPiecesAvoidSeparator(s: string, sep: string)
    requires |sep| > 0
    ensures forall k :: 0 <= k < |Split(s, sep)| ==> !Contains(Split(s, sep)[k], sep)
    decreases |s|
  {
    var found := FindFirst(s, sep);
    if found.Some? {
      var i := found.value;
      var rest := s[i + |sep|..];
      var tail := Split(rest, sep);
      SliceAvoidsBefore(s, sep, i);
      SplitPiecesAvoidSeparator(rest, sep);
      assert Split(s, sep) == [s[..i]] + tail;
      forall k | 0 < k < |Split(s, sep)|
        ensures !Contains(Split(s, sep)[k], sep)
      {
        assert Split(s, sep)[k] == tail[k - 1];
      }
    }
  }

  /** Python's `sep.join(parts)`. */
  function JoinWith(parts: seq<string>, sep: string): string
  {
    if |parts| == 0 then ""
    else if |parts| == 1 then parts[0]
    else parts[0] + sep + JoinWith(parts[1..], sep)
  }

  lemma JoinWithCons(head: string, tail: seq<string>, sep: string)
    requires |tail| >= 1
    ensures JoinWith([head] + tail, sep) == head + sep + JoinWith(tail, sep)
  {
    assert ([head] + tail)[1..] == tail;
  }

  /** A string is what lies before an occurrence, the occurrence, and what follows it. */
  lemma AroundOccurrence(s: string, p: string, i: nat)
    requires OccursAt(s, p, i)
    ensures s == s[..i] + p + s[i + |p|..]
  {
    assert s == s[..i] + s[i..i + |p|] + s[i + |p|..];
  }

  /** Splitting loses nothing: joining the pieces with the separator gives the input back. */
  lemma {:induction false} SplitJoin(s: string, sep: string)
    requires |sep| > 0
    ensures JoinWith(Split(s, sep), sep) == s
    decreases |s|
  {
    var found := FindFirst(s, sep);
    if found.Some? {
      var i := found.value;
      var rest := s[i + |sep|..];
      var tail := Split(rest, sep);
      SplitJoin(rest, sep);
      assert Split(s, sep) == [s[..i]] + tail;
      JoinWithCons(s[..i], tail, sep);
      AroundOccurrence(s, sep, i);
    } else {
      assert Split(s, sep) == [s];
    }
  }

  /** Python's `str.isspace()` on one character. */
  predicate IsSpace(c: char) {
    var n := c as int;
    || (9 <= n <= 13) || (28 <= n <= 32) || n == 0x85 || n == 0xA0 || n == 0x1680
    || (0x2000 <= n <= 0x200A) || n == 0x2028 || n == 0x2029 || n == 0x202F
    || n == 0x205F || n == 0x3000
  }

  /** Neither end of `s` is whitespace. */
  predicate Stripped(s: string) {
    |s| == 0 || (!IsSpace(s[0]) && !IsSpace(s[|s| - 1]))
  }

  /** Python's `s.lstrip()`. */
  function TrimStart(s: string): (r: string)
    ensures |r| <= |s| && r == s[|s| - |r|..]
    ensures forall k :: 0 <= k < |s| - |r| ==> IsSpace(s[k])
    ensures |r| == 0 || !IsSpace(r[0])
  {
    if |s| > 0 && IsSpace(s[0]) then TrimStart(s[1..]) else s
  }

  /** Python's `s.rstrip()`. */
  function TrimEnd(s: string): (r: string)
    ensures |r| <= |s| && r == s[..|r|]
    ensures forall k :: |r| <= k < |s| ==> IsSpace(s[k])
    ensures |r| == 0 || !IsSpace(r[|r| - 1])
  {
    if |s| > 0 && IsSpace(s[|s| - 1]) then TrimEnd(s[..|s| - 1]) else s
  }

  /** `r` sits in `s` at index `i` with only whitespace before and after it. */
  predicate Framed(s: string, r: string, i: nat) {
    && OccursAt(s, r, i)
    && (forall k :: 0 <= k < i ==> IsSpace(s[k]))
    && (forall k :: i + |r| <= k < |s| ==> IsSpace(s[k]))
  }

  /** A slice `r` of a suffix `t` of `s`, with only whitespace cut away, is framed in `s`. */
  lemma FramedOfTrims(s: string, t: string, r: string)
    requires |t| <= |s| && t == s[|s| - |t|..]
    requires forall k :: 0 <= k < |s| - |t| ==> IsSpace(s[k])
    requires |r| <= |t| && r == t[..|r|]
    requires forall k :: |r| <= k < |t| ==> IsSpace(t[k])
    ensures Framed(s, r, |s| - |t|)
  {
    var i := |s| - |t|;
    assert s[i..i + |r|] == t[..|r|];
    forall k | i + |r| <= k < |s|
      ensures IsSpace(s[k])
    {
      assert s[k] == t[k - i];
    }
  }

  /** Trimming both ends leaves the string framed by what was removed. */
  lemma TrimBothFramed(s: string)
    ensures Framed(s, TrimEnd(TrimStart(s)), |s| - |TrimStart(s)|)
  {
    FramedOfTrims(s, TrimStart(s), TrimEnd(TrimStart(s)));
  }

  /** Python's `s.strip()`: the part of `s` left once whitespace is removed from both ends. */
  function Strip(s: string): (r: string)
    ensures Stripped(r)
    ensures exists i: nat :: Framed(s, r, i)
  {
    TrimBothFramed(s);
    TrimEnd(TrimStart(s))
  }

  /** Stripping cannot bring in a pattern the input lacks. */
  lemma StripAvoids(s: string, p: string)
    requires !Contains(s, p)
    ensures !Contains(Strip(s), p)
  {
    var t := Strip(s);
    var i := |s| - |TrimStart(s)|;
    TrimBothFramed(s);
    assert t == s[i..i + |t|];
    SliceAvoids(s, i, i + |t|, p);
  }

  /** Whitespace in front of a string is exactly what `lstrip` removes. */
  lemma {:induction false} TrimStartSkips(w: string, s: string)
    requires forall k :: 0 <= k < |w| ==> IsSpace(w[k])
    requires |s| == 0 || !IsSpace(s[0])
    ensures TrimStart(w + s) == s
    decreases |w|
  {
    if |w| == 0 {
      assert w + s == s;
    } else {
      assert (w + s)[1..] == w[1..] + s;
      TrimStartSkips(w[1..], s);
    }
  }

  /** Whitespace behind a string is exactly what `rstrip` removes. */
  lemma {:induction false} TrimEndSkips(s: string, w: string)
    requires forall k :: 0 <= k < |w| ==> IsSpace(w[k])
    requires |s| == 0 || !IsSpace(s[|s| - 1])
    ensures TrimEnd(s + w) == s
    decreases |w|
  {
    if |w| == 0 {
      assert s + w == s;
    } else {
      assert (s + w)[..|s + w| - 1] == s + w[..|w| - 1];
      TrimEndSkips(s, w[..|w| - 1]);
    }
  }

  /** Stripping a stripped string framed by whitespace recovers the string. */
  lemma StripFramed(w1: string, s: string, w2: string)
    requires forall k :: 0 <= k < |w1| ==> IsSpace(w1[k])
    requires forall k :: 0 <= k < |w2| ==> IsSpace(w2[k])
    requires Stripped(s)
    ensures Strip(w1 + s + w2) == s
  {
    if |s| == 0 {
      assert w1 + s + w2 == w1 + w2;
      assert forall k :: 0 <= k < |w1 + w2| ==> IsSpace((w1 + w2)[k]);
      TrimStartSkips(w1 + w2, "");
      assert w1 + w2 + "" == w1 + w2;
    } else {
      assert w1 + s + w2 == w1 + (s + w2);
      TrimStartSkips(w1, s + w2);
      TrimEndSkips(s, w2);
    }
  }

  /** Python's universal-newline reading of a text file: each "\r\n" and each
      lone "\r" becomes "\n"; every other character is kept. */
  function ReadText(t: string): (r: string)
    ensures '\r' !in r
    ensures |r| <= |t|
    decreases |t|
  {
    if |t| == 0 then ""
    else if t[0] == '\r' then "\n" + ReadText(if |t| > 1 && t[1] == '\n' then t[2..] else t[1..])
    else [t[0]] + ReadText(t[1..])
  }

  /** A text without carriage returns reads back as written. */
  lemma {:induction false} ReadTextPlain(t: string)
    requires '\r' !in t
    ensures ReadText(t) == t
    decreases |t|
  {
    if |t| > 0 {
      assert t == [t[0]] + t[1..];
      ReadTextPlain(t[1..]);
    }
  }

  /** Reading is idempotent: what was read once reads back unchanged. */
  lemma ReadTextIdempotent(t: string)
    ensures ReadText(ReadText(t)) == ReadText(t)
  {
    ReadTextPlain(ReadText(t));
  }

  /** The text written with Windows line endings: every "\n" as "\r\n". */
  function WithCrlf(s: string): string {
    if |s| == 0 then "" else (if s[0] == '\n' then "\r\n" else [s[0]]) + WithCrlf(s[1..])
  }

  /** Reading a text written with "\r\n" line endings gives the "\n" text back. */
  lemma {:induction false} ReadTextCrlf(s: string)
    requires '\r' !in s
    ensures ReadText(WithCrlf(s)) == s
    decreases |s|
  {
    if |s| > 0 {
      ReadTextCrlf(s[1..]);
      var w := WithCrlf(s);
      if s[0] == '\n' {
        assert w[0] == '\r' && w[1] == '\n' && w[2..] == WithCrlf(s[1..]);
      } else {
        assert w[0] == s[0] && w[1..] == WithCrlf(s[1..]);
      }
      assert s == [s[0]] + s[1..];
    }
  }

  /** Python's `a < b` on strings: code-point lexicographic order. */
  predicate LexLess(a: string, b: string)
    decreases |a|
  {
    if |a| == 0 then |b| > 0
    else if |b| == 0 then false
    else if a[0] != b[0] then a[0] < b[0]
    else LexLess(a[1..], b[1..])
  }

  lemma {:induction false} LexLessIrreflexive(a: string)
    ensures !LexLess(a, a)
    decreases |a|
  {
    if |a| > 0 {
      LexLessIrreflexive(a[1..]);
    }
  }

  lemma {:induction false} LexLessTransitive(a: string, b: string, c: string)
    requires LexLess(a, b) && LexLess(b, c)
    ensures LexLess(a, c)
    decreases |a|
  {
    if |a| > 0 && |b| > 0 && |c| > 0 && a[0] == b[0] && b[0] == c[0] {
      LexLessTransitive(a[1..], b[1..], c[1..]);
    }
  }

  /** Any two distinct strings are ordered one way or the other. */
  lemma {:induction false} LexLessTotal(a: string, b: string)
    requires a != b
    ensures LexLess(a, b) || LexLess(b, a)
    decreases |a|
  {
    if |a| > 0 && |b| > 0 && a[0] == b[0] {
      assert a == [a[0]] + a[1..] && b == [b[0]] + b[1..];
      LexLessTotal(a[1..], b[1..]);
    }
  }

  /** A common prefix does not affect the order. */
  lemma {:induction false} LexLessCommonPrefix(p: string, a: string, b: string)
    ensures LexLess(p + a, p + b) == LexLess(a, b)
    decreases |p|
  {
    if |p| > 0 {
      assert (p + a)[0] == p[0] == (p + b)[0];
      assert (p + a)[1..] == p[1..] + a;
      assert (p + b)[1..] == p[1..] + b;
      assert LexLess(p + a, p + b) == LexLess((p + a)[1..], (p + b)[1..]);
      LexLessCommonPrefix(p[1..], a, b);
    } else {
      assert p + a == a && p + b == b;
    }
  }

  /** Between two different strings of one length, a common suffix does not affect the order. */
  lemma {:induction false} LexLessCommonSuffix(a: string, b: string, s: string)
    requires |a| == |b| && a != b
    ensures LexLess(a + s, b + s) == LexLess(a, b)
    decreases |a|
  {
    if a[0] == b[0] {
      assert a == [a[0]] + a[1..] && b == [b[0]] + b[1..];
      assert (a + s)[1..] == a[1..] + s;
      assert (b + s)[1..] == b[1..] + s;
      LexLessCommonSuffix(a[1..], b[1..], s);
    }
  }

  /** `m` is what Python's `max` returns for the collection `names`. */
  predicate IsLexMax(m: string, names: set<string>) {
    m in names && forall y :: y in names ==> !LexLess(m, y)
  }

  lemma {:induction false} LexMaxExists(names: set<string>)
    requires names != {}
    ensures exists m :: IsLexMax(m, names)
    decreases names
  {
    var x :| x in names;
    if names == {x} {
      LexLessIrreflexive(x);
      assert IsLexMax(x, names);
    } else {
      var rest := names - {x};
      LexMaxExists(rest);
      var m :| IsLexMax(m, rest);
      if LexLess(m, x) {
        forall y | y in names
          ensures !LexLess(x, y)
        {
          if y == x {
            LexLessIrreflexive(x);
          } else if LexLess(x, y) {
            LexLessTransitive(m, x, y);
          }
        }
        assert IsLexMax(x, names);
      } else {
        assert IsLexMax(m, names);
      }
    }
  }

  /** The greatest of two maxima is the same element. */
  lemma LexMaxUnique(m1: string, m2: string, names: set<string>)
    requires IsLexMax(m1, names) && IsLexMax(m2, names)
    ensures m1 == m2
  {
    if m1 != m2 {
      LexLessTotal(m1, m2);
    }
  }

  /** Python's `max(names)` for a non-empty collection of strings. */
  function LexMax(names: set<string>): (m: string)
    requires names != {}
    ensures IsLexMax(m, names)
  {
    LexMaxExists(names);
    assert forall m1, m2 :: IsLexMax(m1, names) && IsLexMax(m2, names) ==> m1 == m2 by {
      forall m1, m2 | IsLexMax(m1, names) && IsLexMax(m2, names)
        ensures m1 == m2
      {
        LexMaxUnique(m1, m2, names);
      }
    }
    var m :| IsLexMax(m, names);
    m
  }
}

=== FILE: wrappers.dfy ===
/** Failure-carrying values shared by every module of the model. */
module Wrappers {

  /** A value that may be absent: Python's `None` versus a value. */
  datatype Option<+T> = None | Some(value: T)

  /** The normal return of an operation, or the exception it lets escape. */
  datatype Result<+T, +E> = Ok(value: T) | Err(error: E)
}
